=== FILE: README.md ===
# kernel6-project-bot in Dafny

A model of `main.py`, the Telegram bot that takes citizens' reports of urban
problems ("problemas"). It covers the two conversations of the bot and the
store they write to:

- **Registration wizard.** The `registrar_handler` ConversationHandler runs
  CATEGORIA → TITULO → DESCRICAO → PHOTO → LOCATION → CONFIRMACAO. It
  fills a draft in `user_data["problema"]` and, on "confirm_save", appends it
  to `problemas_store`.
- **Deletion flow.** The `deletar_handler` ConversationHandler runs
  DELETE_PASSWORD → DELETE_CHOOSE → DELETE_CONFIRM. It is a password gate,
  then the choice of one record by a `del:<id>` button, then a confirmation
  that filters the store on `id`.
- **Application dispatch.** Group-0 handlers are tried in the order they
  were added: `/start`, `/ajuda`, the two conversations,
  `handle_menu_actions` and `auto_menu`. Entry points are taken only while a
  conversation is not running. An update no state handler matches falls
  through (`fallbacks=[]`). A handler that raises leaves its conversation
  where it was.
- **Store helpers.** The listing order (newest `created_at` first), the
  selection labels, the preview card and `format_status`.

Modules, in dependency order:

| module | file | what it holds |
|---|---|---|
| `Strings` | strings.dfy | `str.strip()`, `startswith`, `replace(pat, "")`, `split(":")[1]`, the cut-with-ellipsis idiom, `str` ordering |
| `Records` | records.dfy | the report record, constants, the store operations (append, delete-by-id, listing), labels, preview |
| `Conversation` | conversation.dfy | conversation states, updates, `user_data`, handler results, outside values (`Env`) |
| `Wizard` | wizard.dfy | one function per handler of `registrar_handler` |
| `Deletion` | deletion.dfy | one function per handler of `deletar_handler` |
| `Bot` | bot.dfy | the dispatch tables of both conversations, the group-0 order, one update's step on the session |
| `Invariant` | invariant.dfy | the session invariant, its preservation, and the absence of crashes under it |
| `Steps` | steps.dfy | what each kind of update does to the whole session |
| `Scenarios` | scenarios.dfy | whole conversations replayed update by update |

Outside values are parameters in `Env`:

- the clock (`now`, `nowFormatted`);
- the uuid4 of a new report (`freshId`);
- the Telegram user and chat ids;
- whether the Gist save succeeded (`saveOk`).

Telegram replies are abstracted to an `Outcome` value that names which
message the bot sends.

### Behaviour of the code worth knowing

- **Description length.** The description has a lower bound of 10 characters
  and no upper bound (main.py:358-367).
- **Back buttons keep the draft.** Back navigation ("voltar_*") changes the
  state only; every field filled so far stays in the draft
  (`Steps.BackKeepsDraft`).
- **Password comparison.** The password is compared after `strip()`
  (main.py:643-644).
- **Failed save.** When the Gist save fails at confirmation, the record stays
  appended to the in-memory store and the draft is kept (main.py:589-593).
- **Delete ignores the save.** Deletion ignores the result of the Gist save
  (main.py:745-746).
- **Pending target persists.** The pending deletion target
  `user_data["delete_id"]` is never cleared (`Scenarios.DeletionScenario`).
- **Empty coordinates.** Every completed report carries `latitude` and
  `longitude` keys set to `None` (main.py:519-520); nothing reads them.
- **Unknown category payloads.** Any `cat:` payload is accepted as a category,
  not only the seven listed (main.py:279).
- **Deletion entry during the wizard.** "/deletar" and "delete_menu" reach the
  deletion flow even while the wizard runs, because no wizard state takes
  them.
- **Text during the wizard.** A text message goes to the wizard first whenever
  the wizard is at the title, description, photo or location step
  (`Steps.WizardTakesTextFirst`), so the password gate never sees it. At the
  title step a password of 3 to 100 stripped characters becomes the title,
  and at the location step one of at least 5 becomes the location. At the
  description step a password under 10 stripped characters is rejected
  (main.py:358-367). At the photo step a text only re-offers the photo choice
  (main.py:439-476).

## Model

| member | source | states |
|---|---|---|
| Strings.Strip | main.py:311 | `strip()` returns a text that neither starts nor ends with whitespace, no longer than the input, and empty exactly when the input is all whitespace |
| Strings.StripPadding | main.py:311 | whatever whitespace is padded around a text without surrounding whitespace, `strip()` gives that text back |
| Strings.StripIdempotent | main.py:643 | stripping an already stripped text changes nothing |
| Strings.RemoveAllPrefixed | main.py:279 | `replace("cat:", "")` on `"cat:" + c` gives back `c` when `c` has no occurrence of the prefix |
| Strings.Ellipsize | main.py:666-667 | the cut text is at most the limit, equals the input exactly when the input fits, and otherwise is a prefix of it followed by "..." |
| Strings.UpToColon | main.py:695 | the first piece of `split(":")` is a prefix of the text, contains no ':' and is followed by ':' when shorter than the text |
| Strings.LexLeReflexive | main.py:207 | the `str` ordering the listing sorts by is reflexive |
| Strings.LexLeTotal | main.py:207 | any two keys are comparable |
| Strings.LexLeTransitive | main.py:207 | the ordering is transitive |
| Strings.LexLeAntisymmetric | main.py:207 | two keys ordered both ways are equal |
| Records.FormatStatus | main.py:116-123 | the four known statuses map to their label; any other value is shown unchanged |
| Records.FormatStatusIdempotent | main.py:116-123 | no label is itself a known status, so formatting twice is formatting once; distinct statuses get distinct labels |
| Records.Without | main.py:745 | deleting by id never lengthens the store |
| Records.WithoutMembers | main.py:745 | a record survives the deletion exactly when it was in the store and its id differs from the target |
| Records.WithoutAbsent | main.py:745 | deleting an id no record carries leaves the store as it was |
| Records.WithoutIdempotent | main.py:745 | repeating a deletion changes nothing |
| Records.WithoutKeepsKeyed | main.py:745 | deletion keeps every remaining record's id |
| Records.WithoutOnlyMatch | main.py:745 | removing the one matching record keeps the records before and after it, in order |
| Records.WithoutRemovesOne | main.py:745 | with unique ids, deleting record i's id removes exactly position i and keeps the others in order |
| Records.InsertKeepsOrder | main.py:207 | inserting into a newest-first listing keeps it newest first and adds exactly that record |
| Records.Listing | main.py:207 | the listing is ordered by `created_at`, newest first, and is a permutation of the store |
| Records.InsertWithKey | main.py:207 | insertion keeps the relative order of records with the same `created_at` key |
| Records.ListingStable | main.py:207 | the listing is stable: records with equal `created_at` keep their store order |
| Records.Label | main.py:662-668 | a button label is at most 30 characters; it is the title exactly when the title fits, otherwise 27 characters of it plus "..."; "Sem título" stands for a missing title |
| Records.SelectedId | main.py:695 | the id read from a `del:` payload is what follows the prefix up to the next ':' or the end, and contains no ':' |
| Records.SelectedIdRoundTrip | main.py:668 | reading back the payload `del:<id>` built for a record yields that record's id |
| Records.ChoiceList | main.py:661-668 | one choice per record, in store order, each with the record's label and `del:<id>` payload |
| Records.Preview | main.py:546-560 | every field or "-", the description unchanged exactly when it fits in 100 characters and otherwise its first 97 characters followed by "...", the status label of the status (of "" when there is none), "photo attached" exactly for a non-empty file id |
| Wizard.MenuCallback | main.py:180-263 | only "registrar" opens the category step and only "delete_menu" the password step; every other menu button ends the conversation; "listar" shows the listing; nothing is written |
| Wizard.RegistrarCommand | main.py:165-176 | `/registrar` has exactly the effect of the menu's "registrar" button: the category step, with nothing written |
| Wizard.ChooseCategory | main.py:269-289 | "voltar_menu" ends the wizard with the session unchanged; any other payload starts a fresh draft of that category with status "pendente" and asks for the title |
| Wizard.CategoryButtonRoundTrip | main.py:168-170 | each category button's payload yields exactly the fresh draft of that category: pending, with no title, description, photo entry, location, id or timestamp |
| Wizard.ReceiveTitle | main.py:292-338 | a stripped title of 3 to 100 characters is stored and the wizard moves on; shorter or longer is rejected with the reason and nothing changes; "voltar_categoria" returns to the categories |
| Wizard.ReceiveDescription | main.py:341-382 | a stripped description of at least 10 characters is stored and the photo step follows; shorter is rejected; "voltar_titulo" returns to the title |
| Wizard.PhotoChoice | main.py:385-436 | "skip_file" records "no photo" and asks for the location; "add_file", "voltar_foto" and "voltar_descricao" only move the state |
| Wizard.ReceivePhoto | main.py:439-476 | a photo records its file id and moves to the location; a text re-offers the choice with the session unchanged |
| Wizard.Locate | main.py:511-527 | the draft gets the location, a fresh id, creation and update time, the formatted date, the user and chat ids and `None` coordinates, and keeps every field already filled |
| Wizard.LocateOverwrites | main.py:511-527 | giving the location again overwrites the previous location, id and timestamps entirely |
| Wizard.ReceiveLocation | main.py:479-527 | a stripped location of at least 5 characters completes the draft and shows its preview; shorter is rejected; both back buttons return to the photo step |
| Wizard.Confirm | main.py:577-617 | "confirm_save" appends the draft to the end of the store and clears the draft only if the save succeeded; no draft means nothing is stored; "cancel_save" discards the draft; only "voltar_local" keeps the wizard running |
| Deletion.EnterDeletion | main.py:623-629 | `/deletar` and `start_delete_from_menu` (main.py:806-818) ask for the password with nothing written, the same effect as the "delete_menu" branch of `menu_callback` |
| Deletion.CheckPassword | main.py:632-677 | a wrong (stripped) password or an empty store ends the flow; the choices are offered exactly for the right password and a non-empty store; nothing is written |
| Deletion.ChooseRecord | main.py:680-711 | a `del:` payload records the chosen id and asks for confirmation; "voltar_senha" returns to the password; the store is untouched |
| Deletion.ConfirmDeletion | main.py:714-752 | only "delconf:yes" writes the store, removing every record with the pending id; a missing target is an internal error; "delconf:no" and "voltar_escolha" offer the choices again |
| Bot.RegistrarRoute | main.py:770-803 | the only command the wizard takes is `/registrar`, and only when idle; text reaches it exactly at the title, description, photo and location steps; photos exactly at the photo step; never in a deletion state; `cat:` buttons exactly at the category step |
| Bot.ChoosePatternRevisions | main.py:831 | the DELETE_CHOOSE pattern as written accepts a subset of the intended one and rejects every record button `del:<id>`, which the intended one accepts |
| Bot.DeletionRoute | main.py:820-841 | the only command the deletion flow takes is `/deletar`, and only when idle; text reaches it exactly at the password step; never a photo; its entry handler exactly when idle; record choices exactly at DELETE_CHOOSE under the pattern |
| Bot.Others | main.py:844-898 | after both conversations, only the exact "listar" button lists the store (newest first, all of it); text shows the menu exactly when it does not start with "/"; photos and commands are ignored; the text half is `auto_menu` (main.py:758-761, registered at main.py:916-919) |
| Bot.Run | main.py:770-841 | a handler crashes exactly when it raises, and a raising handler changes neither the user data nor the store |
| Bot.Step | main.py:908-919 | `/start` and `/ajuda` are answered before either conversation and never change the session; a crashing update leaves the session as it was |
| Invariant.RegistrarKeepsInv | main.py:770-803 | every update the registration conversation takes keeps the session invariant |
| Invariant.DeletionKeepsInv | main.py:820-841 | every update the deletion conversation takes keeps the session invariant |
| Invariant.StepPreservesInv | main.py:908-919 | every update keeps the invariant: states in range, a draft past the category step, an id at the confirmation, ids on all stored records |
| Invariant.StepNeverCrashes | main.py:770-841 | under the invariant, no modelled update (a new message, a photo, a command, or a button whose payload comes from the bot's keyboards) reaches a `KeyError` or `None` access; edited messages are not modelled (see below) |
| Steps.OnlyConfirmationsWrite | main.py:589 | only "confirm_save" at the confirmation and "delconf:yes" at the deletion confirmation change the store; only choosing a record changes the pending target; the write sites are the append at main.py:589, the filter at main.py:745 and the `delete_id` assignment at main.py:696 |
| Steps.TitleText | main.py:311-338 | a title text is rejected with the session unchanged when its stripped length is below 3 or above 100, otherwise stored stripped with the description step next |
| Steps.DescriptionText | main.py:358-382 | a description text is rejected below 10 stripped characters, otherwise stored stripped with the photo step next |
| Steps.LocationText | main.py:501-527 | a location text is rejected below 5 stripped characters, otherwise completes the draft and shows its preview |
| Steps.FreeTextStep | main.py:292-527 | in each free-text step, text outside the bound leaves the whole session unchanged with the reason; text inside it is written stripped and the wizard moves one step on |
| Steps.BackKeepsDraft | main.py:292-527 | every back button of the wizard changes its state and nothing else in the session |
| Steps.PhotoStep | main.py:385-476 | skipping records "no photo"; a photo records its file id; a text leaves the session unchanged; "add_file" only prompts |
| Steps.ConfirmStep | main.py:577-617 | confirming appends the draft once, at the end, and ends the wizard; the draft is cleared exactly when the save succeeded |
| Steps.CancelStep | main.py:577-617 | cancelling discards the draft, ends the wizard and stores nothing |
| Steps.RegistrarEntry | main.py:165-176 | "/registrar" and the "registrar" button open the category step when the wizard is not running |
| Steps.DeletionEntry | main.py:623-629 | "/deletar" and "delete_menu" open the password gate whatever the wizard is doing |
| Steps.PasswordStep | main.py:632-677 | a wrong password closes the deletion flow; the choices come exactly for the right password and a non-empty store; nothing else in the session changes |
| Steps.WizardTakesTextFirst | main.py:908-913 | while the wizard reads text, a text message never reaches the deletion flow |
| Steps.WizardSkipsDeletionButtons | main.py:770-803 | no state of the wizard takes a payload beginning with "d", so the deletion buttons always pass through it |
| Steps.ChooseStep | main.py:680-711 | with the intended pattern, a record's button moves to the confirmation with that record's id pending |
| Steps.ChooseStepAsWritten | main.py:831 | with the pattern as written, a record's button `del:<id>` is taken by no handler and the session stays where it was |
| Steps.DeleteStep | main.py:740-749 | confirming removes every record with the pending id and closes the deletion flow |
| Steps.DeclineStep | main.py:714-737 | "delconf:no" and "voltar_escolha" both delete nothing and offer the same choices again |
| Steps.IdleText | main.py:758-761 | outside both conversations, text shows the menu unless it starts with "/", and changes nothing |
| Steps.IdleListing | main.py:844-898 | outside both conversations, "listar" answers with the whole store newest first and changes nothing |
| Scenarios.ReplayPreservesInv | main.py:908-919 | every sequence of updates keeps the invariant |
| Scenarios.FilingScenario | main.py:165-617 | filing a report with valid inputs and a successful save appends exactly the stripped inputs with status "pendente", no photo and the outside values, and leaves the session fresh |
| Scenarios.DeletionScenario | main.py:623-752 | with the intended pattern, deleting record i from the command removes exactly that record, closes both flows and leaves the id in the user data |
| Scenarios.DeletionScenarioAsWritten | main.py:831 | with the pattern as written, the same updates leave the store unchanged and the deletion flow stuck waiting for a choice |

## Left out

- Gist persistence is left out, because it is network I/O: `load_from_gist`, `save_to_gist` and `gist_headers` (main.py:62-106). The save result is the parameter `Env.saveOk`, and the initial store is a parameter of a session.
- Telegram I/O is left out: message texts, Markdown, keyboards, `send_menu`, `query.answer()` and `send_photo` in the preview. The bot's reply is the abstract `Outcome`. The buttons a reply offers are modelled only where they feed back as payloads (`Records.ChoiceList`).
- The clock and uuid are parameters, because they are outside values: `get_brasilia_time` and `get_uuid` (main.py:110-114), called at main.py:513 and main.py:516. The formatted date (main.py:514) is the separate parameter `Env.nowFormatted`; the model does not derive it from `Env.now` as the code derives it from `created_at` by `strptime`/`strftime`.
- Bootstrap is left out, because it is process setup, not behaviour: logging, token reading, `error_handler` and `run_polling` (main.py:28-36, 764-765, 902-946). The handler order it registers is modelled in `Bot.Step`.
- Concurrency and multiple chats are left out: one session of one user in one chat is modelled. In PTB each conversation's state is keyed by (chat, user), while `user_data` is keyed by the user alone and shared across chats, and the store is shared by everyone. `Invariant.Inv`'s "a draft exists past the category step" holds only under this one-chat assumption: a user running the wizard in two chats shares one draft, and a new category choice in one chat replaces the draft the other chat is filling.
- Stored records are assumed to hold strings. A Gist record whose `created_at` or `titulo` is not a string is not modelled.
- Bot.Run: Telegram calls are assumed never to raise. In the code, a failing send after a mutation leaves the mutation in place: at main.py:589-597 a send that raises after the append keeps the record stored, the draft and the CONFIRMACAO state, so a second "confirm_save" appends it again; at main.py:511-526 the draft is completed before the preview is sent.
- Invariant.StepNeverCrashes: assumes button payloads that do not end with a line break. Python's `$` also matches before a final "\n", so such a forged payload can reach a handler that compares it exactly and then raises. The model keeps that crash (`Bot.Run`, `Conversation.Anchored`). Edited messages are not modelled either: `Conversation.Event` has no event for them. The text and photo filters also accept an `edited_message` update, and for it `update.message` is `None`. So editing an earlier message while the wizard is at the title, description, photo or location step, or while the deletion flow is at the password step, reaches main.py:311, 358, 442, 501 or 643 and raises `AttributeError`. The session is unchanged, because a raising handler keeps its conversation's state, so `Invariant.StepPreservesInv` is unaffected. `auto_menu` guards against this case (main.py:759).
- Scenarios.FilingScenario: every update of a replay sees the same outside values (`Env`), so the clock does not advance between updates.
- Records.Listing: sorting is modelled by insertion into a newest-first sequence. Stability is proved; Python's Timsort itself is not modelled.

## Findings

| source | as written | input that shows it | evidently intended | confidence | as-written member | corrected member |
|---|---|---|---|---|---|---|
| main.py:831 | the DELETE_CHOOSE pattern is `^(del:|voltar_senha)$`, which matches only the literal "del:" | the button of any record, `del:<uuid>`, after the right password | every `del:<id>` payload reaches `deletar_escolha`, as the `split(":")[1]` at main.py:695 expects | high, not executed | Scenarios.DeletionScenarioAsWritten | Scenarios.DeletionScenario |

`Bot.Revision` selects the pattern. `AsWritten` is the anchored literal; `Intended` is a `del:` prefix. `Steps.ChooseStepAsWritten` shows the step-level discrepancy: the record's button is ignored. `Steps.ChooseStep` shows the intended step. Every other member holds for both revisions.

=== FILE: bot.dfy ===
/** The application: the two ConversationHandlers' dispatch tables, the order
    in which the application offers an update to its handlers, and the step
    one update makes on the whole state of one user's session. */
module Bot {
  import opened Strings
  import opened Records
  import opened Conversation
  import Wizard
  import Deletion

  /** The pattern of the DELETE_CHOOSE state: as written,
      `^(del:|voltar_senha)$`, or as evidently intended, any `del:` payload. */
  datatype Revision = AsWritten | Intended

  /** The session of one user in one chat: the state of each conversation
      (`None` when it is not running), `user_data`, and the record store. */
  datatype Config = Config(
    registrar: Option<State>, deletion: Option<State>,
    user: UserData, store: seq<Report>)

  datatype Transition = Transition(next: Config, out: Outcome)

  datatype Handler =
    | MenuCallbackH | RegistrarCommandH | ChooseCategoryH | ReceiveTitleH
    | ReceiveDescriptionH | PhotoChoiceH | ReceivePhotoH | ReceiveLocationH | ConfirmH
    | EnterDeletionH | CheckPasswordH | ChooseRecordH | ConfirmDeletionH

  predicate IsButton(ev: Event, lit: string) {
    ev.Button? && Anchored(ev.data, lit)
  }

  /** `registrar_handler`: its entry points when it is not running, otherwise
      the handlers of its current state; `None` when nothing matches
      (`fallbacks=[]`). */
  function RegistrarRoute(conv: Option<State>, ev: Event): (r: Option<Handler>)
    ensures ev.Command? ==> (r.Some? <==> conv.None? && ev.name == "registrar")
    ensures ev.Text? ==> (r.Some? <==> conv.Some? && conv.value in {Title, Description, Photo, Location})
    ensures ev.PhotoMessage? ==> (r.Some? <==> conv == Some(Photo))
    ensures conv.Some? && conv.value in {DeletePassword, DeleteChoose, DeleteConfirm} ==> r.None?
    ensures r == Some(ChooseCategoryH) <==> conv == Some(Category) && ev.Button? && StartsWith(ev.data, Wizard.CategoryPrefix)
  {
    match conv
    case None =>
      if IsButton(ev, "registrar") then Some(MenuCallbackH)
      else if ev == Command("registrar") then Some(RegistrarCommandH)
      else None
    case Some(Category) =>
      if ev.Button? && StartsWith(ev.data, Wizard.CategoryPrefix) then Some(ChooseCategoryH)
      else if IsButton(ev, "voltar_menu") then Some(MenuCallbackH)
      else None
    case Some(Title) =>
      if IsButton(ev, "voltar_categoria") || ev.Text? then Some(ReceiveTitleH) else None
    case Some(Description) =>
      if IsButton(ev, "voltar_titulo") || ev.Text? then Some(ReceiveDescriptionH) else None
    case Some(Photo) =>
      if IsButton(ev, "add_file") || IsButton(ev, "skip_file")
         || IsButton(ev, "voltar_descricao") || IsButton(ev, "voltar_foto") then Some(PhotoChoiceH)
      else if ev.PhotoMessage? || ev.Text? then Some(ReceivePhotoH)
      else None
    case Some(Location) =>
      if IsButton(ev, "voltar_apos_foto") || IsButton(ev, "voltar_foto") || ev.Text? then Some(ReceiveLocationH)
      else None
    case Some(Confirmation) =>
      if IsButton(ev, "confirm_save") || IsButton(ev, "cancel_save") || IsButton(ev, "voltar_local") then Some(ConfirmH)
      else None
    case Some(_) => None
  }

  /** The DELETE_CHOOSE pattern. */
  predicate ChoosePattern(rev: Revision, data: string) {
    match rev
    case AsWritten => Anchored(data, DeletePrefix) || Anchored(data, "voltar_senha")
    case Intended => StartsWith(data, DeletePrefix) || Anchored(data, "voltar_senha")
  }

  /** The pattern as written accepts only payloads the intended one accepts
      too, and rejects the button of every record, whose payload is "del:"
      followed by a non-empty id. */
  lemma ChoosePatternRevisions(data: string, id: string)
    requires id != "" && id != "\n"
    ensures ChoosePattern(AsWritten, data) ==> ChoosePattern(Intended, data)
    ensures !ChoosePattern(AsWritten, DeletePrefix + id)
    ensures ChoosePattern(Intended, DeletePrefix + id)
  {
    var p := DeletePrefix + id;
    assert p[..|DeletePrefix|] == DeletePrefix;
    if Anchored(data, DeletePrefix) {
      assert data[..|DeletePrefix|] == DeletePrefix;
    }
    assert |p| > |DeletePrefix|;
    assert p[|DeletePrefix|..] == id;
    assert p[0] != "voltar_senha"[0];
  }

  /** `deletar_handler`, like `RegistrarRoute`. */
  function DeletionRoute(rev: Revision, conv: Option<State>, ev: Event): (r: Option<Handler>)
    ensures ev.Command? ==> (r.Some? <==> conv.None? && ev.name == "deletar")
    ensures ev.Text? ==> (r.Some? <==> conv == Some(DeletePassword))
    ensures ev.PhotoMessage? ==> r.None?
    ensures r == Some(EnterDeletionH) <==> conv.None? && r.Some?
    ensures conv.Some? && conv.value in {Category, Title, Description, Photo, Location, Confirmation} ==> r.None?
    ensures r == Some(ChooseRecordH) <==> conv == Some(DeleteChoose) && ev.Button? && ChoosePattern(rev, ev.data)
  {
    match conv
    case None =>
      if ev == Command("deletar") || IsButton(ev, "delete_menu") then Some(EnterDeletionH) else None
    case Some(DeletePassword) =>
      if IsButton(ev, "voltar_menu") || ev.Text? then Some(CheckPasswordH) else None
    case Some(DeleteChoose) =>
      if ev.Button? && ChoosePattern(rev, ev.data) then Some(ChooseRecordH) else None
    case Some(DeleteConfirm) =>
      if IsButton(ev, "delconf:yes") || IsButton(ev, "delconf:no") || IsButton(ev, "voltar_escolha") then
        Some(ConfirmDeletionH)
      else None
    case Some(_) => None
  }

  /** Calls a handler. A callback-only handler given a message update fails on
      `update.callback_query` being `None`. */
  function Run(h: Handler, ev: Event, u: UserData, store: seq<Report>, env: Env): (e: Effect)
    ensures e.out == Crashed <==> e.ret == Raised
    ensures e.ret == Raised ==> e.user == u && e.store == store
  {
    match h
    case MenuCallbackH => if ev.Button? then Wizard.MenuCallback(ev.data, u, store) else Raise(u, store)
    case RegistrarCommandH => Wizard.RegistrarCommand(u, store)
    case ChooseCategoryH => if ev.Button? then Wizard.ChooseCategory(ev.data, u, store) else Raise(u, store)
    case ReceiveTitleH => Wizard.ReceiveTitle(ev, u, store)
    case ReceiveDescriptionH => Wizard.ReceiveDescription(ev, u, store)
    case PhotoChoiceH => if ev.Button? then Wizard.PhotoChoice(ev.data, u, store) else Raise(u, store)
    case ReceivePhotoH => Wizard.ReceivePhoto(ev, u, store)
    case ReceiveLocationH => Wizard.ReceiveLocation(ev, u, store, env)
    case ConfirmH => if ev.Button? then Wizard.Confirm(ev.data, u, store, env) else Raise(u, store)
    case EnterDeletionH => Deletion.EnterDeletion(u, store)
    case CheckPasswordH => Deletion.CheckPassword(ev, u, store)
    case ChooseRecordH => if ev.Button? then Deletion.ChooseRecord(ev.data, u, store) else Raise(u, store)
    case ConfirmDeletionH => if ev.Button? then Deletion.ConfirmDeletion(ev.data, u, store) else Raise(u, store)
  }

  /** How a ConversationHandler records what its handler returned. */
  function Advance(conv: Option<State>, ret: Ret): Option<State> {
    match ret
    case Goto(s) => Some(s)
    case End => None
    case KeepState => conv
    case Raised => conv
  }

  /** The handlers after the two conversations: `handle_menu_actions` for
      "listar", "ajuda" and "voltar_menu", and `auto_menu` for other text. */
  function Others(ev: Event, store: seq<Report>): (o: Outcome)
    ensures o.Listed? <==> ev == Button("listar")
    ensures o.Listed? ==> NewestFirst(o.reports) && multiset(o.reports) == multiset(store)
    ensures ev.Text? ==> (o == Silent <==> StartsWith(ev.text, "/")) && (o == MenuShown <==> !StartsWith(ev.text, "/"))
    ensures ev.PhotoMessage? || ev.Command? ==> o == Ignored
  {
    if IsButton(ev, "listar") || IsButton(ev, "ajuda") || IsButton(ev, "voltar_menu") then
      if ev.data == "listar" then Listed(Listing(store))
      else if ev.data == "ajuda" then HelpShown
      else if ev.data == "voltar_menu" then MenuShown
      else Silent
    else if ev.Text? then
      if StartsWith(ev.text, "/") then Silent else MenuShown
    else Ignored
  }

  /** One update. The group-0 handlers are tried in the order they were
      added: `/start`, `/ajuda`, the registration conversation, the deletion
      conversation, the menu actions, the automatic menu. The first that
      matches handles it. */
  function Step(rev: Revision, c: Config, ev: Event, env: Env): (r: Transition)
    ensures r.out == Crashed ==> r.next == c
    ensures ev == Command("start") || ev == Command("ajuda") ==> r.next == c
  {
    if ev == Command("start") then Transition(c, MenuShown)
    else if ev == Command("ajuda") then Transition(c, HelpShown)
    else
      match RegistrarRoute(c.registrar, ev)
      case Some(h) =>
        var e := Run(h, ev, c.user, c.store, env);
        Transition(c.(registrar := Advance(c.registrar, e.ret), user := e.user, store := e.store), e.out)
      case None =>
        match DeletionRoute(rev, c.deletion, ev)
        case Some(h) =>
          var e := Run(h, ev, c.user, c.store, env);
          Transition(c.(deletion := Advance(c.deletion, e.ret), user := e.user, store := e.store), e.out)
        case None =>
          Transition(c, Others(ev, c.store))
  }
}

=== FILE: conversation.dfy ===
/** What every handler of the two conversations sees and returns: the nine
    conversation states, the incoming Telegram update reduced to its kind and
    payload, the per-user bag `context.user_data`, the values the handlers take
    from the clock, uuid4, the update and the Gist, and the handler's result. */
module Conversation {
  import opened Strings
  import opened Records

  /** `CATEGORIA … CONFIRMACAO` (0–5) and `DELETE_PASSWORD … DELETE_CONFIRM`
      (6–8): one namespace of states shared by both conversations. */
  datatype State =
    | Category | Title | Description | Photo | Location | Confirmation
    | DeletePassword | DeleteChoose | DeleteConfirm

  /** An update: an inline-button press with its callback data, a plain text
      message (not a command), a photo message (the file id of its largest
      size), or a `/command`. */
  datatype Event =
    | Button(data: string)
    | Text(text: string)
    | PhotoMessage(fileId: string)
    | Command(name: string)

  /** `context.user_data`: the draft under "problema" and the pending target
      under "delete_id". It outlives both conversations. */
  datatype UserData = UserData(draft: Option<Report>, deleteId: Option<string>)

  /** The values a handler takes from outside: the Brasília wall clock in both
      formats, a fresh uuid4, the sender and chat ids of the update, and
      whether `save_to_gist()` reports success. */
  datatype Env = Env(
    now: string, nowFormatted: string, freshId: string,
    userId: int, chatId: int, saveOk: bool)

  /** What a handler returns to its ConversationHandler: a state, `END`,
      `None` (keep the current state), or an exception (the framework logs it
      and the state is not updated). */
  datatype Ret = Goto(next: State) | End | KeepState | Raised

  datatype Rejection = TitleTooShort | TitleTooLong | DescriptionTooShort | LocationTooVague

  /** The abstract content of what the bot answers. */
  datatype Outcome =
    | Ignored                    // no handler took the update
    | Silent                     // a handler ran and sent nothing
    | MenuShown | HelpShown
    | Listed(reports: seq<Report>)
    | CategoryPrompt | TitlePrompt | DescriptionPrompt
    | PhotoPrompt | PhotoUploadPrompt | LocationPrompt
    | Rejected(why: Rejection)
    | PhotoRequired
    | ShowPreview(card: PreviewCard)
    | Saved | SaveFailed | NoDraft | Cancelled
    | PasswordPrompt | WrongPassword | NothingToDelete
    | ShowChoices(choices: seq<Choice>)
    | ConfirmDeletePrompt | Deleted | InternalError
    | Crashed

  /** A handler's result: what it returns, the user data and store after it,
      and what it answers. */
  datatype Effect = Effect(ret: Ret, user: UserData, store: seq<Report>, out: Outcome)

  /** An exception escaping the handler before it changed anything. */
  function Raise(u: UserData, store: seq<Report>): Effect {
    Effect(Raised, u, store, Crashed)
  }

  /** `(update.message.text or "")` for a message update. */
  function MessageText(ev: Event): string {
    match ev
    case Text(t) => t
    case Command(name) => "/" + name
    case _ => ""
  }

  /** `re.match("^lit$", data)`: Python's `$` also matches just before one
      final newline. */
  predicate Anchored(data: string, lit: string) {
    data == lit || data == lit + "\n"
  }

  /** The draft exists and is a non-empty dict (`if not problema` fails). */
  predicate HasDraft(u: UserData) {
    u.draft.Some? && u.draft.value != Blank
  }
}

=== FILE: deletion.dfy ===
/** The deletion wizard: the handlers of `deletar_handler`. A password gate,
    the choice of one record, and a confirmation that filters the store. */
module Deletion {
  import opened Strings
  import opened Records
  import opened Conversation
  import Wizard

  /** `deletar_command` and `start_delete_from_menu`: ask for the password,
      with the same effect as the "delete_menu" branch of `menu_callback`. */
  function EnterDeletion(u: UserData, store: seq<Report>): (e: Effect)
    ensures e == Wizard.MenuCallback("delete_menu", u, store)
    ensures e.ret == Goto(DeletePassword) && e.user == u && e.store == store
  {
    Effect(Goto(DeletePassword), u, store, PasswordPrompt)
  }

  /** `deletar_password`. The stripped text must equal the secret; a wrong
      password and an empty store both end the flow at once; otherwise one
      choice per record is offered. Nothing here changes the store. */
  function CheckPassword(ev: Event, u: UserData, store: seq<Report>): (e: Effect)
    ensures e.user == u && e.store == store
    ensures ev.Button? ==> (e.ret == End <==> ev.data == "voltar_menu")
    ensures !ev.Button? && Strip(MessageText(ev)) != AdminPassword ==> e.ret == End && e.out == WrongPassword
    ensures !ev.Button? && Strip(MessageText(ev)) == AdminPassword && |store| == 0 ==>
      e.ret == End && e.out == NothingToDelete
    ensures e.ret == Goto(DeleteChoose) <==>
      !ev.Button? && Strip(MessageText(ev)) == AdminPassword && |store| > 0 && AllKeyed(store)
    ensures e.ret == Goto(DeleteChoose) ==> e.out == ShowChoices(ChoiceList(store))
  {
    match ev
    case Button(data) =>
      if data == "voltar_menu" then Effect(End, u, store, MenuShown)
      else Effect(Goto(DeletePassword), u, store, Silent)
    case _ =>
      if Strip(MessageText(ev)) != AdminPassword then Effect(End, u, store, WrongPassword)
      else if |store| == 0 then Effect(End, u, store, NothingToDelete)
      else if !AllKeyed(store) then Raise(u, store)   // `p['id']` raises KeyError
      else Effect(Goto(DeleteChoose), u, store, ShowChoices(ChoiceList(store)))
  }

  /** `deletar_escolha`. A `del:` payload records the target read back from it
      and asks for confirmation; "voltar_senha" returns to the password. */
  function ChooseRecord(data: string, u: UserData, store: seq<Report>): (e: Effect)
    ensures e.store == store
    ensures e.ret == Goto(DeleteConfirm) <==> StartsWith(data, DeletePrefix)
    ensures StartsWith(data, DeletePrefix) ==> e.user == u.(deleteId := Some(SelectedId(data)))
    ensures !StartsWith(data, DeletePrefix) ==> e.user == u
    ensures data == "voltar_senha" ==> e.ret == Goto(DeletePassword)
  {
    if data == "voltar_senha" then
      assert data[0] != DeletePrefix[0];
      Effect(Goto(DeletePassword), u, store, PasswordPrompt)
    else if StartsWith(data, DeletePrefix) then
      Effect(Goto(DeleteConfirm), u.(deleteId := Some(SelectedId(data))), store, ConfirmDeletePrompt)
    else Effect(Goto(DeleteChoose), u, store, Silent)
  }

  /** `deletar_confirmar`. "delconf:yes" removes every record carrying the
      pending id (whatever the Gist save reports) and ends the flow; a missing
      or empty target is an internal error; "delconf:no" and "voltar_escolha"
      offer the choices again. The target itself is kept in the user data. */
  function ConfirmDeletion(data: string, u: UserData, store: seq<Report>): (e: Effect)
    ensures e.user == u
    ensures e.store != store ==> data == "delconf:yes"
    ensures data == "delconf:yes" && u.deleteId.Some? && u.deleteId.value != "" && AllKeyed(store) ==>
      e == Effect(End, u, Without(store, u.deleteId.value), Deleted)
    ensures data == "delconf:yes" && (u.deleteId.None? || u.deleteId.value == "") ==>
      e == Effect(End, u, store, InternalError)
    ensures (data == "delconf:no" || data == "voltar_escolha") && AllKeyed(store) ==>
      e == Effect(Goto(DeleteChoose), u, store, ShowChoices(ChoiceList(store)))
    ensures data !in {"delconf:yes", "delconf:no", "voltar_escolha"} ==> e == Effect(End, u, store, Silent)
  {
    if data == "delconf:no" || data == "voltar_escolha" then
      if !AllKeyed(store) then Raise(u, store)
      else Effect(Goto(DeleteChoose), u, store, ShowChoices(ChoiceList(store)))
    else if data == "delconf:yes" then
      if u.deleteId.None? || u.deleteId.value == "" then Effect(End, u, store, InternalError)
      else if !AllKeyed(store) then Raise(u, store)
      else Effect(End, u, Without(store, u.deleteId.value), Deleted)
    else Effect(End, u, store, Silent)
  }
}

=== FILE: invariant.dfy ===
/** The invariant of a session: each conversation sits in one of its own
    states, the draft exists whenever the wizard is past the category step
    and has its id at the confirmation, and every stored record has an id.
    Every update preserves it, and under it no handler reaches one of the
    `KeyError` paths of `main.py`. */
module Invariant {
  import opened Strings
  import opened Records
  import opened Conversation
  import Wizard
  import Deletion
  import opened Bot

  predicate IsRegistrarState(s: State) {
    s.Category? || s.Title? || s.Description? || s.Photo? || s.Location? || s.Confirmation?
  }

  predicate IsDeletionState(s: State) {
    s.DeletePassword? || s.DeleteChoose? || s.DeleteConfirm?
  }

  predicate Inv(c: Config) {
    && (c.registrar.Some? ==> IsRegistrarState(c.registrar.value))
    && (c.deletion.Some? ==> IsDeletionState(c.deletion.value))
    && (c.registrar.Some? && c.registrar.value != Category ==> c.user.draft.Some?)
    && (c.registrar == Some(Confirmation) ==> c.user.draft.value.id.Some?)
    && AllKeyed(c.store)
  }

  /** A fresh session: no conversation running, nothing in `user_data`. */
  lemma InitialInv(store: seq<Report>)
    requires AllKeyed(store)
    ensures Inv(Config(None, None, UserData(None, None), store))
  {
  }

  function After(c: Config, inRegistrar: bool, e: Effect): Config {
    if inRegistrar then c.(registrar := Advance(c.registrar, e.ret), user := e.user, store := e.store)
    else c.(deletion := Advance(c.deletion, e.ret), user := e.user, store := e.store)
  }

  lemma InvAfterEntry(h: Handler, c: Config, ev: Event, env: Env)
    requires Inv(c) && c.registrar == None && RegistrarRoute(c.registrar, ev) == Some(h)
    ensures Inv(After(c, true, Run(h, ev, c.user, c.store, env)))
  {
  }

  lemma InvAfterCategory(h: Handler, c: Config, ev: Event, env: Env)
    requires Inv(c) && c.registrar == Some(Category) && RegistrarRoute(c.registrar, ev) == Some(h)
    ensures Inv(After(c, true, Run(h, ev, c.user, c.store, env)))
  {
  }

  lemma InvAfterTitle(h: Handler, c: Config, ev: Event, env: Env)
    requires Inv(c) && c.registrar == Some(Title) && RegistrarRoute(c.registrar, ev) == Some(h)
    ensures Inv(After(c, true, Run(h, ev, c.user, c.store, env)))
  {
  }

  lemma InvAfterDescription(h: Handler, c: Config, ev: Event, env: Env)
    requires Inv(c) && c.registrar == Some(Description) && RegistrarRoute(c.registrar, ev) == Some(h)
    ensures Inv(After(c, true, Run(h, ev, c.user, c.store, env)))
  {
  }

  lemma InvAfterPhoto(h: Handler, c: Config, ev: Event, env: Env)
    requires Inv(c) && c.registrar == Some(Photo) && RegistrarRoute(c.registrar, ev) == Some(h)
    ensures Inv(After(c, true, Run(h, ev, c.user, c.store, env)))
  {
    if ev.Button? {
      assert h == PhotoChoiceH;
      var e := Wizard.PhotoChoice(ev.data, c.user, c.store);
      assert e.ret in {Goto(Location), Goto(Photo), Goto(Description), KeepState, Raised};
    } else {
      assert h == ReceivePhotoH;
    }
  }

  lemma InvAfterLocation(h: Handler, c: Config, ev: Event, env: Env)
    requires Inv(c) && c.registrar == Some(Location) && RegistrarRoute(c.registrar, ev) == Some(h)
    ensures Inv(After(c, true, Run(h, ev, c.user, c.store, env)))
  {
    var e := Wizard.ReceiveLocation(ev, c.user, c.store, env);
    assert h == ReceiveLocationH;
    if e.ret == Goto(Confirmation) {
      assert e.user.draft.value.id == Some(env.freshId);
    }
  }

  lemma InvAfterConfirmation(h: Handler, c: Config, ev: Event, env: Env)
    requires Inv(c) && c.registrar == Some(Confirmation) && RegistrarRoute(c.registrar, ev) == Some(h)
    ensures Inv(After(c, true, Run(h, ev, c.user, c.store, env)))
  {
  }

  /** Whatever the registration conversation does with an update keeps the
      invariant. */
  lemma RegistrarKeepsInv(h: Handler, c: Config, ev: Event, env: Env)
    requires Inv(c) && RegistrarRoute(c.registrar, ev) == Some(h)
    ensures Inv(After(c, true, Run(h, ev, c.user, c.store, env)))
  {
    match c.registrar
    case None => InvAfterEntry(h, c, ev, env);
    case Some(Category) => InvAfterCategory(h, c, ev, env);
    case Some(Title) => InvAfterTitle(h, c, ev, env);
    case Some(Description) => InvAfterDescription(h, c, ev, env);
    case Some(Photo) => InvAfterPhoto(h, c, ev, env);
    case Some(Location) => InvAfterLocation(h, c, ev, env);
    case Some(Confirmation) => InvAfterConfirmation(h, c, ev, env);
  }

  lemma InvAfterDeletionEntry(rev: Revision, h: Handler, c: Config, ev: Event, env: Env)
    requires Inv(c) && c.deletion.None? && DeletionRoute(rev, c.deletion, ev) == Some(h)
    ensures Inv(After(c, false, Run(h, ev, c.user, c.store, env)))
  {
  }

  lemma InvAfterPassword(rev: Revision, h: Handler, c: Config, ev: Event, env: Env)
    requires Inv(c) && c.deletion == Some(DeletePassword) && DeletionRoute(rev, c.deletion, ev) == Some(h)
    ensures Inv(After(c, false, Run(h, ev, c.user, c.store, env)))
  {
    assert h == CheckPasswordH;
  }

  lemma InvAfterChoice(rev: Revision, h: Handler, c: Config, ev: Event, env: Env)
    requires Inv(c) && c.deletion == Some(DeleteChoose) && DeletionRoute(rev, c.deletion, ev) == Some(h)
    ensures Inv(After(c, false, Run(h, ev, c.user, c.store, env)))
  {
    assert h == ChooseRecordH && ev.Button?;
    var e := Deletion.ChooseRecord(ev.data, c.user, c.store);
    assert e.ret in {Goto(DeletePassword), Goto(DeleteConfirm), Goto(DeleteChoose)};
  }

  lemma InvAfterDeleteConfirm(rev: Revision, h: Handler, c: Config, ev: Event, env: Env)
    requires Inv(c) && c.deletion == Some(DeleteConfirm) && DeletionRoute(rev, c.deletion, ev) == Some(h)
    ensures Inv(After(c, false, Run(h, ev, c.user, c.store, env)))
  {
    assert h == ConfirmDeletionH && ev.Button?;
    if ev.data == "delconf:yes" && c.user.deleteId.Some? && c.user.deleteId.value != "" {
      WithoutKeepsKeyed(c.store, c.user.deleteId.value);
    }
  }

  /** Whatever the deletion conversation does with an update keeps the
      invariant. */
  lemma DeletionKeepsInv(rev: Revision, h: Handler, c: Config, ev: Event, env: Env)
    requires Inv(c) && DeletionRoute(rev, c.deletion, ev) == Some(h)
    ensures Inv(After(c, false, Run(h, ev, c.user, c.store, env)))
  {
    match c.deletion
    case None => InvAfterDeletionEntry(rev, h, c, ev, env);
    case Some(DeletePassword) => InvAfterPassword(rev, h, c, ev, env);
    case Some(DeleteChoose) => InvAfterChoice(rev, h, c, ev, env);
    case Some(DeleteConfirm) => InvAfterDeleteConfirm(rev, h, c, ev, env);
  }

  lemma StepPreservesInv(rev: Revision, c: Config, ev: Event, env: Env)
    requires Inv(c)
    ensures Inv(Step(rev, c, ev, env).next)
  {
    if ev != Command("start") && ev != Command("ajuda") {
      var route := RegistrarRoute(c.registrar, ev);
      if route.Some? {
        RegistrarKeepsInv(route.value, c, ev, env);
      } else {
        var droute := DeletionRoute(rev, c.deletion, ev);
        if droute.Some? {
          DeletionKeepsInv(rev, droute.value, c, ev, env);
        }
      }
    }
  }

  /** Button payloads as the bot's own keyboards produce them. */
  predicate PlainPayload(ev: Event) {
    ev.Button? ==> !(|ev.data| > 0 && ev.data[|ev.data| - 1] == '\n')
  }

  /** The string ends with a line break, so `Anchored` met it through `$`. */
  lemma NewlineAnchored(data: string, lit: string)
    requires Anchored(data, lit) && data != lit
    ensures |data| > 0 && data[|data| - 1] == '\n'
  {
    assert data == lit + "\n";
  }

  /** The wizard's buttons: every handler a button reaches accepts it, once
      its payload has no trailing line break. */
  lemma WizardButtonNeverCrashes(h: Handler, c: Config, ev: Event, env: Env)
    requires Inv(c) && PlainPayload(ev) && ev.Button? && RegistrarRoute(c.registrar, ev) == Some(h)
    ensures Run(h, ev, c.user, c.store, env).out != Crashed
  {
    var d := ev.data;
    match c.registrar
    case Some(Title) =>
      if d != "voltar_categoria" {
        NewlineAnchored(d, "voltar_categoria");
      }
    case Some(Description) =>
      if d != "voltar_titulo" {
        NewlineAnchored(d, "voltar_titulo");
      }
    case Some(Location) =>
      if d != "voltar_apos_foto" && d != "voltar_foto" {
        if Anchored(d, "voltar_apos_foto") {
          NewlineAnchored(d, "voltar_apos_foto");
        } else {
          NewlineAnchored(d, "voltar_foto");
        }
      }
    case _ =>
  }

  /** The wizard's messages: every step that reads one has its draft. */
  lemma WizardMessageNeverCrashes(h: Handler, c: Config, ev: Event, env: Env)
    requires Inv(c) && !ev.Button? && RegistrarRoute(c.registrar, ev) == Some(h)
    ensures Run(h, ev, c.user, c.store, env).out != Crashed
  {
  }

  lemma RegistrarNeverCrashes(h: Handler, c: Config, ev: Event, env: Env)
    requires Inv(c) && PlainPayload(ev) && RegistrarRoute(c.registrar, ev) == Some(h)
    ensures Run(h, ev, c.user, c.store, env).out != Crashed
  {
    if ev.Button? {
      WizardButtonNeverCrashes(h, c, ev, env);
    } else {
      WizardMessageNeverCrashes(h, c, ev, env);
    }
  }

  lemma DeletionNeverCrashes(rev: Revision, h: Handler, c: Config, ev: Event, env: Env)
    requires Inv(c) && DeletionRoute(rev, c.deletion, ev) == Some(h)
    ensures Run(h, ev, c.user, c.store, env).out != Crashed
  {
  }

  /** Under the invariant, and for the payloads the bot's keyboards send, no
      update makes a handler raise. */
  lemma StepNeverCrashes(rev: Revision, c: Config, ev: Event, env: Env)
    requires Inv(c) && PlainPayload(ev)
    ensures Step(rev, c, ev, env).out != Crashed
  {
    if ev != Command("start") && ev != Command("ajuda") {
      var route := RegistrarRoute(c.registrar, ev);
      if route.Some? {
        RegistrarNeverCrashes(route.value, c, ev, env);
      } else {
        var droute := DeletionRoute(rev, c.deletion, ev);
        if droute.Some? {
          DeletionNeverCrashes(rev, droute.value, c, ev, env);
        }
      }
    }
  }
}

=== FILE: records.dfy ===
/** The report record and the in-memory record store the two wizards act on
    (`problemas_store`), with the store's three operations: append at
    confirmation, delete by filtering on `id`, and the listing order. Also the
    pure display helpers: status labels, selection labels, the preview card. */
module Records {
  import opened Strings

  datatype Option<T> = None | Some(value: T)

  /** The `photo_file_id` entry of a report: absent, explicitly `None` (the
      user skipped the photo), or the file id of the received photo. */
  datatype PhotoEntry = NoEntry | Skipped | Attached(fileId: string)

  /** A key whose only value the bot ever writes is `None`: absent, or
      present with `None` (`latitude` and `longitude`). */
  datatype NullKey = Missing | Null

  /** One report dict. The draft in `user_data["problema"]` and the records of
      the store are the same dicts, so one datatype serves both; `None` stands
      for a key the dict does not have. */
  datatype Report = Report(
    category: Option<string>,
    status: Option<string>,
    title: Option<string>,
    description: Option<string>,
    photo: PhotoEntry,
    location: Option<string>,
    id: Option<string>,
    userId: Option<int>,
    chatId: Option<int>,
    createdAt: Option<string>,
    createdAtFormatted: Option<string>,
    updatedAt: Option<string>,
    latitude: NullKey,
    longitude: NullKey)

  /** The empty dict. */
  const Blank := Report(None, None, None, None, NoEntry, None, None, None, None, None, None, None, Missing, Missing)

  const StatusPending := "pendente"
  const AdminPassword := "12345678"
  const Categories := [
    "Iluminação pública",
    "Limpeza urbana",
    "Buraco na rua",
    "Áreas verdes / Praças",
    "Escola / Creche",
    "Segurança",
    "Outro"
  ]

  const StatusLabels: map<string, string> := map[
    "pendente" := "⏳ Pendente",
    "aprovado" := "✅ Aprovado",
    "em_analise" := "🔍 Em análise",
    "rejeitado" := "❌ Rejeitado"
  ]

  /** `format_status`: the four known statuses get their label, any other
      value is shown as it is. */
  function FormatStatus(status: string): (shown: string)
    ensures status in StatusLabels ==> shown == StatusLabels[status]
    ensures status !in StatusLabels ==> shown == status
  {
    if status in StatusLabels then StatusLabels[status] else status
  }

  /** No label is itself a status, so formatting a formatted status changes
      nothing, and distinct known statuses are told apart. */
  lemma FormatStatusIdempotent(status: string)
    ensures FormatStatus(FormatStatus(status)) == FormatStatus(status)
    ensures forall s, t :: s in StatusLabels && t in StatusLabels && s != t ==> FormatStatus(s) != FormatStatus(t)
  {
  }

  // ---------------------------------------------------------------------------
  // Delete by filtering

  /** Every record has an `id` key (`p["id"]` does not raise). */
  predicate AllKeyed(store: seq<Report>) {
    forall i :: 0 <= i < |store| ==> store[i].id.Some?
  }

  /** No two records share an `id`. */
  predicate UniqueIds(store: seq<Report>) {
    forall i, j :: 0 <= i < j < |store| ==> store[i].id != store[j].id
  }

  /** `[p for p in store if p["id"] != target]`. */
  function Without(store: seq<Report>, target: string): (kept: seq<Report>)
    ensures |kept| <= |store|
  {
    if |store| == 0 then []
    else (if store[0].id == Some(target) then [] else [store[0]]) + Without(store[1..], target)
  }

  /** A record survives the deletion exactly when it was in the store and
      carries another id (or none). */
  lemma {:induction false} WithoutMembers(store: seq<Report>, target: string, r: Report)
    ensures r in Without(store, target) <==> r in store && r.id != Some(target)
  {
    if |store| > 0 {
      WithoutMembers(store[1..], target, r);
      assert store == [store[0]] + store[1..];
    }
  }

  /** Filtering distributes over concatenation: the kept records keep their
      relative order. */
  lemma {:induction false} WithoutConcat(a: seq<Report>, b: seq<Report>, target: string)
    ensures Without(a + b, target) == Without(a, target) + Without(b, target)
  {
    if |a| > 0 {
      assert (a + b)[0] == a[0];
      assert (a + b)[1..] == a[1..] + b;
      WithoutConcat(a[1..], b, target);
    } else {
      assert a + b == b;
    }
  }

  /** Deleting an id no record carries leaves the store as it was. */
  lemma {:induction false} WithoutAbsent(store: seq<Report>, target: string)
    requires forall j :: 0 <= j < |store| ==> store[j].id != Some(target)
    ensures Without(store, target) == store
  {
    if |store| > 0 {
      assert forall j :: 0 <= j < |store| - 1 ==> store[1..][j] == store[j + 1];
      WithoutAbsent(store[1..], target);
      assert store == [store[0]] + store[1..];
    }
  }

  /** Filtering keeps every record's `id` key. */
  lemma WithoutKeepsKeyed(store: seq<Report>, target: string)
    requires AllKeyed(store)
    ensures AllKeyed(Without(store, target))
  {
    var kept := Without(store, target);
    forall j | 0 <= j < |kept| ensures kept[j].id.Some? {
      WithoutMembers(store, target, kept[j]);
    }
  }

  /** Deleting twice is deleting once. */
  lemma WithoutIdempotent(store: seq<Report>, target: string)
    ensures Without(Without(store, target), target) == Without(store, target)
  {
    var kept := Without(store, target);
    forall j | 0 <= j < |kept| ensures kept[j].id != Some(target) {
      WithoutMembers(store, target, kept[j]);
    }
    WithoutAbsent(kept, target);
  }

  /** The one matching record is dropped and the records after it kept. */
  lemma WithoutDropsHead(x: Report, after: seq<Report>, target: string)
    requires x.id == Some(target)
    requires forall j :: 0 <= j < |after| ==> after[j].id != Some(target)
    ensures Without([x] + after, target) == after
  {
    WithoutConcat([x], after, target);
    assert Without([x], target) == [] + Without([x][1..], target);
    assert [x][1..] == [];
    WithoutAbsent(after, target);
  }

  lemma WithoutOnlyMatch(before: seq<Report>, x: Report, after: seq<Report>, target: string)
    requires forall j :: 0 <= j < |before| ==> before[j].id != Some(target)
    requires forall j :: 0 <= j < |after| ==> after[j].id != Some(target)
    requires x.id == Some(target)
    ensures Without(before + [x] + after, target) == before + after
  {
    assert before + [x] + after == before + ([x] + after);
    WithoutConcat(before, [x] + after, target);
    WithoutAbsent(before, target);
    WithoutDropsHead(x, after, target);
  }

  /** With unique ids, deleting the id of the record at `i` removes exactly that
      record and keeps all others in their order. */
  lemma WithoutRemovesOne(store: seq<Report>, i: nat)
    requires AllKeyed(store) && UniqueIds(store) && i < |store|
    ensures Without(store, store[i].id.value) == store[..i] + store[i + 1..]
  {
    var target := store[i].id.value;
    var before, after := store[..i], store[i + 1..];
    forall j | 0 <= j < |before| ensures before[j].id != Some(target) {
      assert before[j] == store[j];
    }
    forall j | 0 <= j < |after| ensures after[j].id != Some(target) {
      assert after[j] == store[i + 1 + j];
    }
    assert store == before + [store[i]] + after;
    WithoutOnlyMatch(before, store[i], after, target);
  }

  // ---------------------------------------------------------------------------
  // Listing order: sorted(store, key=lambda x: x.get("created_at", ""), reverse=True)

  function CreatedKey(r: Report): string {
    match r.createdAt
    case Some(k) => k
    case None => ""
  }

  /** Creation keys never increase along the sequence. */
  predicate NewestFirst(rs: seq<Report>) {
    forall i, j :: 0 <= i < j < |rs| ==> LexLe(CreatedKey(rs[j]), CreatedKey(rs[i]))
  }

  lemma PrependNewest(x: Report, rs: seq<Report>)
    requires NewestFirst(rs)
    requires forall y :: y in rs ==> LexLe(CreatedKey(y), CreatedKey(x))
    ensures NewestFirst([x] + rs)
  {
    var out := [x] + rs;
    forall i, j | 0 <= i < j < |out| ensures LexLe(CreatedKey(out[j]), CreatedKey(out[i])) {
      if i == 0 {
        assert out[j] == rs[j - 1];
      } else {
        assert out[i] == rs[i - 1] && out[j] == rs[j - 1];
      }
    }
  }

  /** Puts `r` in front of the first report whose key is not greater than
      its own, so `r` precedes every report with an equal key. */
  function Insert(r: Report, rs: seq<Report>): seq<Report> {
    if |rs| == 0 then [r]
    else if LexLe(CreatedKey(rs[0]), CreatedKey(r)) then [r] + rs
    else [rs[0]] + Insert(r, rs[1..])
  }

  /** A newest-first listing whose first report is not newer than `r` stays
      newest first with `r` in front. */
  lemma InsertInFront(r: Report, rs: seq<Report>)
    requires NewestFirst(rs) && |rs| > 0 && LexLe(CreatedKey(rs[0]), CreatedKey(r))
    ensures NewestFirst([r] + rs)
  {
    forall y | y in rs ensures LexLe(CreatedKey(y), CreatedKey(r)) {
      var j :| 0 <= j < |rs| && rs[j] == y;
      if j > 0 {
        LexLeTransitive(CreatedKey(y), CreatedKey(rs[0]), CreatedKey(r));
      }
    }
    PrependNewest(r, rs);
  }

  lemma NewestFirstTail(rs: seq<Report>)
    requires NewestFirst(rs) && |rs| > 0
    ensures NewestFirst(rs[1..])
  {
    forall i, j | 0 <= i < j < |rs[1..]| ensures LexLe(CreatedKey(rs[1..][j]), CreatedKey(rs[1..][i])) {
      assert rs[1..][j] == rs[j + 1] && rs[1..][i] == rs[i + 1];
    }
  }

  /** When `r` is older than the first report, that report is at least as new
      as everything `r` is inserted among behind it. */
  lemma HeadBoundsInsert(r: Report, rs: seq<Report>, tail: seq<Report>)
    requires NewestFirst(rs) && |rs| > 0 && !LexLe(CreatedKey(rs[0]), CreatedKey(r))
    requires multiset(tail) == multiset(rs[1..]) + multiset{r}
    ensures forall y :: y in tail ==> LexLe(CreatedKey(y), CreatedKey(rs[0]))
  {
    forall y | y in tail ensures LexLe(CreatedKey(y), CreatedKey(rs[0])) {
      assert y in multiset(tail);
      if y == r {
        LexLeTotal(CreatedKey(rs[0]), CreatedKey(r));
      } else {
        assert y in multiset(rs[1..]);
        var j :| 0 <= j < |rs[1..]| && rs[1..][j] == y;
        assert rs[j + 1] == y;
      }
    }
  }

  /** Inserting into a listing keeps it newest first and adds exactly `r`. */
  lemma {:induction false} InsertKeepsOrder(r: Report, rs: seq<Report>)
    requires NewestFirst(rs)
    ensures NewestFirst(Insert(r, rs))
    ensures multiset(Insert(r, rs)) == multiset(rs) + multiset{r}
  {
    if |rs| == 0 {
    } else if LexLe(CreatedKey(rs[0]), CreatedKey(r)) {
      InsertInFront(r, rs);
    } else {
      var tail := Insert(r, rs[1..]);
      NewestFirstTail(rs);
      InsertKeepsOrder(r, rs[1..]);
      assert rs == [rs[0]] + rs[1..];
      HeadBoundsInsert(r, rs, tail);
      PrependNewest(rs[0], tail);
    }
  }

  /** The listing: the store newest first, a permutation of it. */
  function Listing(store: seq<Report>): (out: seq<Report>)
    ensures NewestFirst(out)
    ensures multiset(out) == multiset(store)
  {
    if |store| == 0 then []
    else
      var rest := Listing(store[1..]);
      InsertKeepsOrder(store[0], rest);
      assert multiset(store) == multiset(store[1..]) + multiset{store[0]} by {
        assert store == [store[0]] + store[1..];
      }
      Insert(store[0], rest)
  }

  /** The reports whose creation key is `k`, in sequence order. */
  function WithKey(rs: seq<Report>, k: string): seq<Report> {
    if |rs| == 0 then []
    else (if CreatedKey(rs[0]) == k then [rs[0]] else []) + WithKey(rs[1..], k)
  }

  lemma WithKeyCons(x: Report, xs: seq<Report>, k: string)
    ensures WithKey([x] + xs, k) == (if CreatedKey(x) == k then [x] else []) + WithKey(xs, k)
  {
    assert ([x] + xs)[1..] == xs;
  }

  /** Insertion passes over every report with the same key as `r`, so among
      the reports with any one key it keeps their order. */
  lemma {:induction false} InsertWithKey(r: Report, rs: seq<Report>, k: string)
    ensures WithKey(Insert(r, rs), k) == (if CreatedKey(r) == k then [r] else []) + WithKey(rs, k)
  {
    var mine := if CreatedKey(r) == k then [r] else [];
    if |rs| == 0 || LexLe(CreatedKey(rs[0]), CreatedKey(r)) {
      assert Insert(r, rs) == [r] + rs;
      WithKeyCons(r, rs, k);
    } else {
      var head := if CreatedKey(rs[0]) == k then [rs[0]] else [];
      var tail := Insert(r, rs[1..]);
      assert Insert(r, rs) == [rs[0]] + tail;
      assert rs == [rs[0]] + rs[1..];
      WithKeyCons(rs[0], tail, k);
      WithKeyCons(rs[0], rs[1..], k);
      InsertWithKey(r, rs[1..], k);
      LexLeReflexive(CreatedKey(r));
      var rest := WithKey(rs[1..], k);
      if mine == [] {
        assert mine + rest == rest;
        assert head + rest == mine + (head + rest);
      } else {
        assert head == [];
        assert head + (mine + rest) == mine + rest;
        assert head + rest == rest;
      }
    }
  }

  /** The sort is stable: for every key, the reports carrying it appear in the
      listing in the same order as in the store. */
  lemma {:induction false} ListingStable(store: seq<Report>, k: string)
    ensures WithKey(Listing(store), k) == WithKey(store, k)
  {
    if |store| > 0 {
      ListingStable(store[1..], k);
      InsertWithKey(store[0], Listing(store[1..]), k);
    }
  }

  // ---------------------------------------------------------------------------
  // Selection labels and payloads of the deletion wizard

  const NoTitle := "Sem título"
  const LabelLimit := 30
  const DeletePrefix := "del:"

  function DisplayTitle(r: Report): string {
    match r.title
    case Some(t) => t
    case None => NoTitle
  }

  /** The button label of a record: its title, cut to 27 characters plus
      "..." when it is longer than 30. */
  function Label(r: Report): (caption: string)
    ensures |caption| <= LabelLimit
    ensures |DisplayTitle(r)| <= LabelLimit <==> caption == DisplayTitle(r)
    ensures |DisplayTitle(r)| > LabelLimit ==>
      && |caption| == LabelLimit
      && StartsWith(DisplayTitle(r), caption[..LabelLimit - 3])
      && caption[LabelLimit - 3..] == "..."
  {
    Ellipsize(DisplayTitle(r), LabelLimit)
  }

  datatype Choice = Choice(caption: string, payload: string)

  /** The text after `del:` up to the next ':': `data.split(":")[1]` for a
      payload that starts with `del:`. */
  function SelectedId(data: string): (id: string)
    requires StartsWith(data, DeletePrefix)
    ensures ':' !in id
    ensures StartsWith(data[|DeletePrefix|..], id)
    ensures |DeletePrefix| + |id| < |data| ==> data[|DeletePrefix| + |id|] == ':'
  {
    UpToColon(data[|DeletePrefix|..])
  }

  /** Reading the id back from a choice's payload gives the record's id,
      whenever the id has no ':' (uuid4 strings have none). */
  lemma SelectedIdRoundTrip(id: string)
    requires ':' !in id
    ensures StartsWith(DeletePrefix + id, DeletePrefix)
    ensures SelectedId(DeletePrefix + id) == id
  {
    assert (DeletePrefix + id)[..|DeletePrefix|] == DeletePrefix;
    assert (DeletePrefix + id)[|DeletePrefix|..] == id;
  }

  /** One choice per record, in store order: label and `del:<id>` payload. */
  function ChoiceList(store: seq<Report>): (cs: seq<Choice>)
    requires AllKeyed(store)
    ensures |cs| == |store|
    ensures forall i :: 0 <= i < |cs| ==>
      cs[i].caption == Label(store[i]) && cs[i].payload == DeletePrefix + store[i].id.value
  {
    if |store| == 0 then []
    else
      assert AllKeyed(store[1..]) by {
        forall i | 0 <= i < |store| - 1 ensures store[1..][i].id.Some? {
          assert store[1..][i] == store[i + 1];
        }
      }
      [Choice(Label(store[0]), DeletePrefix + store[0].id.value)] + ChoiceList(store[1..])
  }

  // ---------------------------------------------------------------------------
  // The confirmation preview

  datatype PreviewCard = PreviewCard(
    category: string, title: string, description: string, location: string,
    date: string, status: string, photoAttached: bool)

  const PreviewLimit := 100

  function OrDash(o: Option<string>): string {
    match o
    case Some(s) => s
    case None => "-"
  }

  /** The preview of a draft: every field or "-", the description cut to 97
      characters plus "..." when longer than 100, the status label, and
      whether a (non-empty) photo id is attached. */
  function Preview(d: Report): (card: PreviewCard)
    ensures |card.description| <= PreviewLimit
    ensures |OrDash(d.description)| <= PreviewLimit <==> card.description == OrDash(d.description)
    ensures |OrDash(d.description)| > PreviewLimit ==>
      card.description == OrDash(d.description)[..PreviewLimit - 3] + "..."
    ensures card.photoAttached <==> d.photo.Attached? && d.photo.fileId != ""
    ensures card.title == OrDash(d.title) && card.location == OrDash(d.location)
    ensures card.category == OrDash(d.category) && card.date == OrDash(d.createdAtFormatted)
    ensures card.status == FormatStatus(if d.status.Some? then d.status.value else "")
  {
    PreviewCard(
      OrDash(d.category),
      OrDash(d.title),
      Ellipsize(OrDash(d.description), PreviewLimit),
      OrDash(d.location),
      OrDash(d.createdAtFormatted),
      FormatStatus(if d.status.Some? then d.status.value else ""),
      d.photo.Attached? && d.photo.fileId != "")
  }
}

=== FILE: scenarios.dfy ===
/** Whole conversations: a session replayed over a sequence of updates, the
    invariant kept along any sequence, a report filed from the first button
    to the confirmation, and a record deleted from the password to the
    confirmation, with the DELETE_CHOOSE pattern both as written and as
    intended. */
module Scenarios {
  import opened Strings
  import opened Records
  import opened Conversation
  import opened Wizard
  import opened Bot
  import opened Invariant
  import opened Steps

  /** A session nobody has talked to yet. */
  function Fresh(store: seq<Report>): Config {
    Config(None, None, UserData(None, None), store)
  }

  /** The session after a sequence of updates, all seen with the same
      outside values. */
  function Replay(rev: Revision, c: Config, evs: seq<Event>, env: Env): Config
    decreases |evs|
  {
    if evs == [] then c else Replay(rev, Step(rev, c, evs[0], env).next, evs[1..], env)
  }

  /** Every sequence of updates keeps the invariant. */
  lemma {:induction false} ReplayPreservesInv(rev: Revision, c: Config, evs: seq<Event>, env: Env)
    requires Inv(c)
    ensures Inv(Replay(rev, c, evs, env))
    decreases |evs|
  {
    if evs != [] {
      StepPreservesInv(rev, c, evs[0], env);
      ReplayPreservesInv(rev, Step(rev, c, evs[0], env).next, evs[1..], env);
    }
  }

  lemma ReplayPair(rev: Revision, c: Config, ev: Event, rest: seq<Event>, env: Env)
    ensures Replay(rev, c, [ev] + rest, env) == Replay(rev, Step(rev, c, ev, env).next, rest, env)
  {
    assert ([ev] + rest)[1..] == rest;
  }

  /** The updates of a report filed from the main menu: category `i`, a
      title, a description, no photo, a location, and the confirmation. */
  function Filing(category: string, title: string, description: string, place: string): seq<Event> {
    [Button("registrar"), Button(CategoryPrefix + category), Text(title), Text(description),
     Button("skip_file"), Text(place), Button("confirm_save")]
  }

  /** The record such a filing stores. */
  function Filed(category: string, title: string, description: string, place: string, env: Env): Report {
    Locate(NewDraft(category).(title := Some(title), description := Some(description), photo := Skipped), place, env)
  }

  lemma CategoryNamesPlain(i: nat)
    requires i < |Categories|
    ensures ':' !in Categories[i]
  {
  }

  /** The payload of the button of a category names that category and no
      other button of the category step. */
  lemma CategoryPayload(cat: string)
    requires ':' !in cat
    ensures var data := CategoryPrefix + cat;
      && StartsWith(data, CategoryPrefix)
      && RemoveAll(data, CategoryPrefix) == cat
      && !Anchored(data, "voltar_menu")
  {
    var data := CategoryPrefix + cat;
    assert data[..|CategoryPrefix|] == CategoryPrefix;
    AbsentCharNoOccurrence(CategoryPrefix, ':', cat);
    RemoveAllPrefixed(CategoryPrefix, cat);
    assert data[0] == 'c';
  }

  /** Choosing category `i` from the category step. */
  lemma CategoryStep(rev: Revision, c: Config, i: nat, env: Env)
    requires c.registrar == Some(Category) && i < |Categories|
    ensures Step(rev, c, Button(CategoryPrefix + Categories[i]), env).next
      == c.(registrar := Some(Title), user := c.user.(draft := Some(NewDraft(Categories[i]))))
  {
    CategoryNamesPlain(i);
    CategoryPayload(Categories[i]);
  }

  /** One update of a replay. */
  lemma ReplayStep(rev: Revision, c: Config, evs: seq<Event>, k: nat, next: Config, env: Env)
    requires k < |evs| && Step(rev, c, evs[k], env).next == next
    ensures Replay(rev, c, evs[k..], env) == Replay(rev, next, evs[k + 1..], env)
  {
    ReplayPair(rev, c, evs[k], evs[k + 1..], env);
    assert [evs[k]] + evs[k + 1..] == evs[k..];
  }

  /** The title and the description of a filing. */
  lemma FilingTexts(rev: Revision, c: Config, cat: string, title: string, description: string,
                    place: string, env: Env)
    requires Inv(c) && c.registrar == Some(Title) && c.user.draft == Some(NewDraft(cat))
    requires TitleFits(Strip(title)) && DescriptionFits(Strip(description))
    ensures var evs := Filing(cat, title, description, place);
      var d := NewDraft(cat).(title := Some(Strip(title)), description := Some(Strip(description)));
      Replay(rev, c, evs[2..], env)
      == Replay(rev, c.(registrar := Some(Photo), user := c.user.(draft := Some(d))), evs[4..], env)
  {
    var evs := Filing(cat, title, description, place);
    var d2 := NewDraft(cat);
    var d3 := d2.(title := Some(Strip(title)));
    var c3 := c.(registrar := Some(Description), user := c.user.(draft := Some(d3)));
    assert Step(rev, c, evs[2], env).next == c3 by {
      assert evs[2] == Text(title);
      assert Verdict(Title, Strip(title)).None?;
      FreeTextStep(rev, c, title, env);
    }
    var d4 := d3.(description := Some(Strip(description)));
    var c4 := c3.(registrar := Some(Photo), user := c3.user.(draft := Some(d4)));
    assert Step(rev, c3, evs[3], env).next == c4 by {
      assert evs[3] == Text(description);
      assert Inv(c3);
      assert Verdict(Description, Strip(description)).None?;
      FreeTextStep(rev, c3, description, env);
    }
    ReplayStep(rev, c, evs, 2, c3, env);
    ReplayStep(rev, c3, evs, 3, c4, env);
  }

  /** The confirmation that ends a filing. */
  lemma FilingConfirm(rev: Revision, c: Config, evs: seq<Event>, env: Env)
    requires |evs| == 7 && evs[6] == Button("confirm_save") && env.saveOk
    requires c.registrar == Some(Confirmation) && c.deletion.None? && c.user.deleteId.None? && HasDraft(c.user)
    ensures Replay(rev, c, evs[6..], env) == Fresh(c.store + [c.user.draft.value])
  {
    var next := Fresh(c.store + [c.user.draft.value]);
    assert Step(rev, c, evs[6], env).next == next by { ConfirmStep(rev, c, env); }
    ReplayStep(rev, c, evs, 6, next, env);
  }

  /** The photo step, the location and the confirmation of a filing. */
  lemma FilingClose(rev: Revision, c: Config, cat: string, title: string, description: string,
                    place: string, env: Env)
    requires Inv(c) && c.registrar == Some(Photo) && c.deletion.None? && c.user.deleteId.None? && env.saveOk
    requires c.user.draft == Some(NewDraft(cat).(title := Some(Strip(title)), description := Some(Strip(description))))
    requires LocationFits(Strip(place))
    ensures var evs := Filing(cat, title, description, place);
      Replay(rev, c, evs[4..], env)
      == Fresh(c.store + [Filed(cat, Strip(title), Strip(description), Strip(place), env)])
  {
    var evs := Filing(cat, title, description, place);
    var d5 := c.user.draft.value.(photo := Skipped);
    var c5 := c.(registrar := Some(Location), user := c.user.(draft := Some(d5)));
    assert Step(rev, c, evs[4], env).next == c5 by { PhotoStep(rev, c, Button("skip_file"), env); }
    var d6 := Locate(d5, Strip(place), env);
    var c6 := c5.(registrar := Some(Confirmation), user := c5.user.(draft := Some(d6)));
    assert Step(rev, c5, evs[5], env).next == c6 by {
      assert evs[5] == Text(place);
      assert Verdict(Location, Strip(place)).None?;
      LocationText(rev, c5, place, env);
    }
    ReplayStep(rev, c, evs, 4, c5, env);
    ReplayStep(rev, c5, evs, 5, c6, env);
    assert d6.category != Blank.category;
    FilingConfirm(rev, c6, evs, env);
  }

  /** Filing a report with inputs inside the bounds and a save that succeeds
      appends exactly the stripped inputs, the pending status, no photo and
      the outside values to the store, and leaves the session as fresh as it
      began. */
  lemma FilingScenario(rev: Revision, store: seq<Report>, i: nat, title: string, description: string,
                       place: string, env: Env)
    requires AllKeyed(store) && i < |Categories| && env.saveOk
    requires TitleFits(Strip(title)) && DescriptionFits(Strip(description)) && LocationFits(Strip(place))
    ensures Replay(rev, Fresh(store), Filing(Categories[i], title, description, place), env)
      == Fresh(store + [Filed(Categories[i], Strip(title), Strip(description), Strip(place), env)])
  {
    var cat := Categories[i];
    var evs := Filing(cat, title, description, place);
    var c0 := Fresh(store);
    var c1 := c0.(registrar := Some(Category));
    assert Step(rev, c0, evs[0], env).next == c1 by { RegistrarEntry(rev, c0, evs[0], env); }
    var c2 := c1.(registrar := Some(Title), user := c1.user.(draft := Some(NewDraft(cat))));
    assert Step(rev, c1, evs[1], env).next == c2 by {
      assert evs[1] == Button(CategoryPrefix + cat);
      CategoryStep(rev, c1, i, env);
    }
    ReplayStep(rev, c0, evs, 0, c1, env);
    ReplayStep(rev, c1, evs, 1, c2, env);
    assert evs[0..] == evs;
    FilingTexts(rev, c2, cat, title, description, place, env);
    var d := NewDraft(cat).(title := Some(Strip(title)), description := Some(Strip(description)));
    FilingClose(rev, c2.(registrar := Some(Photo), user := c2.user.(draft := Some(d))),
                cat, title, description, place, env);
  }

  /** Record ids as uuid4 writes them: non-empty, without ':' and without a
      line break. */
  predicate PlainIds(store: seq<Report>) {
    && AllKeyed(store)
    && forall j :: 0 <= j < |store| ==>
         store[j].id.value != "" && ':' !in store[j].id.value && '\n' !in store[j].id.value
  }

  /** The updates that delete record `i` from the command: the password, the
      record's button, and the confirmation. */
  function Deleting(store: seq<Report>, i: nat): seq<Event>
    requires AllKeyed(store) && i < |store|
  {
    [Command("deletar"), Text(AdminPassword), Button(ChoiceList(store)[i].payload), Button("delconf:yes")]
  }

  lemma PasswordIsStripped()
    ensures Strip(AdminPassword) == AdminPassword
  {
    assert [] + AdminPassword + [] == AdminPassword;
    StripPadding([], AdminPassword, []);
  }

  /** The steps both revisions share: the command and the right password lead
      to the choice of a record. */
  lemma DeletionOpening(rev: Revision, store: seq<Report>, i: nat, env: Env)
    requires AllKeyed(store) && i < |store|
    ensures var evs := Deleting(store, i);
      Replay(rev, Fresh(store), evs, env) == Replay(rev, Fresh(store).(deletion := Some(DeleteChoose)), evs[2..], env)
  {
    var evs := Deleting(store, i);
    var c0 := Fresh(store);
    var c1 := c0.(deletion := Some(DeletePassword));
    assert Step(rev, c0, evs[0], env).next == c1 by { DeletionEntry(rev, c0, evs[0], env); }
    var c2 := c0.(deletion := Some(DeleteChoose));
    assert Step(rev, c1, evs[1], env).next == c2 by {
      PasswordIsStripped();
      PasswordStep(rev, c1, AdminPassword, env);
    }
    calc {
      Replay(rev, c0, evs, env);
      { ReplayPair(rev, c0, evs[0], evs[1..], env); assert [evs[0]] + evs[1..] == evs; }
      Replay(rev, c1, evs[1..], env);
      { ReplayPair(rev, c1, evs[1], evs[2..], env); assert [evs[1]] + evs[2..] == evs[1..]; }
      Replay(rev, c2, evs[2..], env);
    }
  }

  /** Deleting record `i`, with the DELETE_CHOOSE pattern as intended: the
      store loses exactly that record, both flows are over, and the id stays
      behind in the user data. */
  lemma DeletionScenario(store: seq<Report>, i: nat, env: Env)
    requires PlainIds(store) && UniqueIds(store) && i < |store|
    ensures Replay(Intended, Fresh(store), Deleting(store, i), env)
      == Config(None, None, UserData(None, Some(store[i].id.value)), store[..i] + store[i + 1..])
  {
    var evs := Deleting(store, i);
    var id := store[i].id.value;
    var c2 := Fresh(store).(deletion := Some(DeleteChoose));
    var c3 := c2.(deletion := Some(DeleteConfirm), user := c2.user.(deleteId := Some(id)));
    assert Step(Intended, c2, evs[2], env).next == c3 by { ChooseStep(c2, id, env); }
    var c4 := Config(None, None, UserData(None, Some(id)), store[..i] + store[i + 1..]);
    assert Step(Intended, c3, evs[3], env).next == c4 by {
      DeleteStep(Intended, c3, env);
      WithoutRemovesOne(store, i);
    }
    calc {
      Replay(Intended, Fresh(store), evs, env);
      { DeletionOpening(Intended, store, i, env); }
      Replay(Intended, c2, evs[2..], env);
      { ReplayPair(Intended, c2, evs[2], evs[3..], env); assert [evs[2]] + evs[3..] == evs[2..]; }
      Replay(Intended, c3, evs[3..], env);
      { ReplayPair(Intended, c3, evs[3], [], env); assert [evs[3]] + [] == evs[3..]; }
      Replay(Intended, c4, [], env);
    }
  }

  /** The same updates with the pattern as written: the record's button is
      taken by no handler, the confirmation is not either, and the store
      keeps every record while the deletion flow waits for a choice. */
  lemma DeletionScenarioAsWritten(store: seq<Report>, i: nat, env: Env)
    requires PlainIds(store) && i < |store|
    ensures Replay(AsWritten, Fresh(store), Deleting(store, i), env)
      == Fresh(store).(deletion := Some(DeleteChoose))
  {
    var evs := Deleting(store, i);
    var id := store[i].id.value;
    var c2 := Fresh(store).(deletion := Some(DeleteChoose));
    assert Step(AsWritten, c2, evs[2], env).next == c2 by {
      assert id != "\n" by { assert id[0] != '\n'; }
      ChooseStepAsWritten(c2, id, env);
    }
    assert Step(AsWritten, c2, evs[3], env).next == c2 by {
      WizardSkipsDeletionButtons(c2.registrar, "delconf:yes");
    }
    calc {
      Replay(AsWritten, Fresh(store), evs, env);
      { DeletionOpening(AsWritten, store, i, env); }
      Replay(AsWritten, c2, evs[2..], env);
      { ReplayPair(AsWritten, c2, evs[2], evs[3..], env); assert [evs[2]] + evs[3..] == evs[2..]; }
      Replay(AsWritten, c2, evs[3..], env);
      { ReplayPair(AsWritten, c2, evs[3], [], env); assert [evs[3]] + [] == evs[3..]; }
      Replay(AsWritten, c2, [], env);
    }
  }
}

=== FILE: steps.dfy ===
/** What one update does to a whole session, state by state: the wizard as a
    table of free-text steps and back buttons, the two ends of the wizard,
    the password gate, the choice and the confirmation of a deletion, and
    the updates no conversation takes. Each lemma is stated against
    `Bot.Step`, so it covers the routing of both ConversationHandlers and the
    order of the application's handlers as well as the handler itself. */
module Steps {
  import opened Strings
  import opened Records
  import opened Conversation
  import Wizard
  import Deletion
  import opened Bot
  import opened Invariant

  /** The registration conversation writes the store only on "confirm_save"
      at the confirmation, and never touches the pending deletion target. */
  lemma WizardWrites(h: Handler, c: Config, ev: Event, env: Env)
    requires RegistrarRoute(c.registrar, ev) == Some(h)
    ensures var e := Run(h, ev, c.user, c.store, env);
      && (e.store != c.store ==> c.registrar == Some(Confirmation) && ev == Button("confirm_save"))
      && e.user.deleteId == c.user.deleteId
  {
    if c.registrar == Some(Confirmation) {
      assert h == ConfirmH && ev.Button?;
    } else {
      assert h != ConfirmH;
    }
  }

  /** The deletion conversation writes the store only on "delconf:yes" at the
      confirmation, and sets the target only when a record is chosen. */
  lemma DeletionWrites(rev: Revision, h: Handler, c: Config, ev: Event, env: Env)
    requires DeletionRoute(rev, c.deletion, ev) == Some(h)
    ensures var e := Run(h, ev, c.user, c.store, env);
      && (e.store != c.store ==> c.deletion == Some(DeleteConfirm) && ev == Button("delconf:yes"))
      && (e.user.deleteId != c.user.deleteId ==>
            c.deletion == Some(DeleteChoose) && ev.Button? && StartsWith(ev.data, DeletePrefix))
  {
  }

  /** Only two updates ever change the store: confirming a report and
      confirming a deletion. Only choosing a record changes the pending
      deletion target. */
  lemma OnlyConfirmationsWrite(rev: Revision, c: Config, ev: Event, env: Env)
    ensures var r := Step(rev, c, ev, env);
      && (r.next.store != c.store ==>
            || (c.registrar == Some(Confirmation) && ev == Button("confirm_save"))
            || (c.deletion == Some(DeleteConfirm) && ev == Button("delconf:yes")))
      && (r.next.user.deleteId != c.user.deleteId ==>
            c.deletion == Some(DeleteChoose) && ev.Button? && StartsWith(ev.data, DeletePrefix))
  {
    if ev != Command("start") && ev != Command("ajuda") {
      var route := RegistrarRoute(c.registrar, ev);
      if route.Some? {
        WizardWrites(route.value, c, ev, env);
      } else {
        var droute := DeletionRoute(rev, c.deletion, ev);
        if droute.Some? {
          DeletionWrites(rev, droute.value, c, ev, env);
        }
      }
    }
  }

  /** The three steps that read free text, and the state each one leads to. */
  predicate IsTextStep(s: State) {
    s.Title? || s.Description? || s.Location?
  }

  function NextStep(s: State): State
    requires IsTextStep(s)
  {
    match s
    case Title => Description
    case Description => Photo
    case Location => Confirmation
  }

  /** The bound each free-text step enforces on the stripped text, as the
      user is told about it. */
  function Verdict(s: State, t: string): Option<Rejection>
    requires IsTextStep(s)
  {
    match s
    case Title =>
      if |t| < 3 then Some(TitleTooShort) else if |t| > 100 then Some(TitleTooLong) else None
    case Description => if |t| < 10 then Some(DescriptionTooShort) else None
    case Location => if |t| < 5 then Some(LocationTooVague) else None
  }

  /** What an accepted text writes into the draft. */
  function Fill(s: State, d: Report, t: string, env: Env): Report
    requires IsTextStep(s)
  {
    match s
    case Title => d.(title := Some(t))
    case Description => d.(description := Some(t))
    case Location => Wizard.Locate(d, t, env)
  }

  /** The prompt that follows an accepted text. */
  function Follow(s: State, d: Report): Outcome
    requires IsTextStep(s)
  {
    match s
    case Title => DescriptionPrompt
    case Description => PhotoPrompt
    case Location => ShowPreview(Preview(d))
  }

  lemma TitleText(rev: Revision, c: Config, t: string, env: Env)
    requires Inv(c) && c.registrar == Some(Title)
    ensures var r := Step(rev, c, Text(t), env);
      && (|Strip(t)| < 3 ==> r == Transition(c, Rejected(TitleTooShort)))
      && (|Strip(t)| > 100 ==> r == Transition(c, Rejected(TitleTooLong)))
      && (3 <= |Strip(t)| <= 100 ==>
            var d := c.user.draft.value.(title := Some(Strip(t)));
            r == Transition(c.(registrar := Some(Description), user := c.user.(draft := Some(d))), DescriptionPrompt))
  {
    assert MessageText(Text(t)) == t;
    assert RegistrarRoute(c.registrar, Text(t)) == Some(ReceiveTitleH);
  }

  lemma DescriptionText(rev: Revision, c: Config, t: string, env: Env)
    requires Inv(c) && c.registrar == Some(Description)
    ensures var r := Step(rev, c, Text(t), env);
      && (|Strip(t)| < 10 ==> r == Transition(c, Rejected(DescriptionTooShort)))
      && (|Strip(t)| >= 10 ==>
            var d := c.user.draft.value.(description := Some(Strip(t)));
            r == Transition(c.(registrar := Some(Photo), user := c.user.(draft := Some(d))), PhotoPrompt))
  {
    assert MessageText(Text(t)) == t;
    assert RegistrarRoute(c.registrar, Text(t)) == Some(ReceiveDescriptionH);
  }

  lemma LocationText(rev: Revision, c: Config, t: string, env: Env)
    requires Inv(c) && c.registrar == Some(Location)
    ensures var r := Step(rev, c, Text(t), env);
      && (|Strip(t)| < 5 ==> r == Transition(c, Rejected(LocationTooVague)))
      && (|Strip(t)| >= 5 ==>
            var d := Wizard.Locate(c.user.draft.value, Strip(t), env);
            r == Transition(c.(registrar := Some(Confirmation), user := c.user.(draft := Some(d))), ShowPreview(Preview(d))))
  {
    assert MessageText(Text(t)) == t;
    assert RegistrarRoute(c.registrar, Text(t)) == Some(ReceiveLocationH);
  }

  /** A free-text step: text outside the bound leaves the whole session as it
      was and says why; text inside it (stripped) is written into the draft
      and the wizard moves one step on. The deletion flow and the store are
      never touched. */
  lemma FreeTextStep(rev: Revision, c: Config, t: string, env: Env)
    requires Inv(c) && c.registrar.Some? && IsTextStep(c.registrar.value)
    ensures var s := c.registrar.value;
      var r := Step(rev, c, Text(t), env);
      var v := Verdict(s, Strip(t));
      && (v.Some? ==> r == Transition(c, Rejected(v.value)))
      && (v.None? ==>
            var d := Fill(s, c.user.draft.value, Strip(t), env);
            r == Transition(c.(registrar := Some(NextStep(s)), user := c.user.(draft := Some(d))), Follow(s, d)))
  {
    match c.registrar.value
    case Title => TitleText(rev, c, t, env);
    case Description => DescriptionText(rev, c, t, env);
    case Location => LocationText(rev, c, t, env);
  }

  /** The back buttons of the wizard and where each leads. */
  function BackTarget(s: State, data: string): Option<State> {
    match (s, data)
    case (Title, "voltar_categoria") => Some(Category)
    case (Description, "voltar_titulo") => Some(Title)
    case (Photo, "voltar_descricao") => Some(Description)
    case (Photo, "voltar_foto") => Some(Photo)
    case (Location, "voltar_apos_foto") => Some(Photo)
    case (Location, "voltar_foto") => Some(Photo)
    case (Confirmation, "voltar_local") => Some(Location)
    case _ => None
  }

  /** A back button changes the wizard's state and nothing else: the draft
      keeps every field filled so far. */
  lemma BackKeepsDraft(rev: Revision, c: Config, data: string, env: Env)
    requires c.registrar.Some? && BackTarget(c.registrar.value, data).Some?
    ensures Step(rev, c, Button(data), env).next == c.(registrar := BackTarget(c.registrar.value, data))
  {
    var ev := Button(data);
    match c.registrar.value
    case Title => assert Wizard.ReceiveTitle(ev, c.user, c.store).ret == Goto(Category);
    case Description => assert Wizard.ReceiveDescription(ev, c.user, c.store).ret == Goto(Title);
    case Photo =>
    case Location => assert Wizard.ReceiveLocation(ev, c.user, c.store, env).ret == Goto(Photo);
    case Confirmation =>
  }

  /** The photo step: skipping records that there is no photo, a photo is
      recorded by its file id, and any other text re-offers the choice. */
  lemma PhotoStep(rev: Revision, c: Config, ev: Event, env: Env)
    requires Inv(c) && c.registrar == Some(Photo)
    ensures var r := Step(rev, c, ev, env);
      var d := c.user.draft.value;
      && (ev == Button("skip_file") ==>
            r.next == c.(registrar := Some(Location), user := c.user.(draft := Some(d.(photo := Skipped)))))
      && (ev.PhotoMessage? ==>
            r.next == c.(registrar := Some(Location), user := c.user.(draft := Some(d.(photo := Attached(ev.fileId))))))
      && (ev.Text? ==> r == Transition(c, PhotoRequired))
      && (ev == Button("add_file") ==> r == Transition(c, PhotoUploadPrompt))
  {
  }

  /** Confirming stores the draft exactly once, at the end of the store, and
      ends the wizard; the draft is cleared exactly when the save succeeded. */
  lemma ConfirmStep(rev: Revision, c: Config, env: Env)
    requires c.registrar == Some(Confirmation) && HasDraft(c.user)
    ensures var r := Step(rev, c, Button("confirm_save"), env);
      var stored := c.store + [c.user.draft.value];
      && (env.saveOk ==>
            r == Transition(c.(registrar := None, user := c.user.(draft := None), store := stored), Saved))
      && (!env.saveOk ==> r == Transition(c.(registrar := None, store := stored), SaveFailed))
  {
  }

  /** Cancelling at the confirmation discards the draft and stores nothing. */
  lemma CancelStep(rev: Revision, c: Config, env: Env)
    requires c.registrar == Some(Confirmation)
    ensures Step(rev, c, Button("cancel_save"), env)
      == Transition(c.(registrar := None, user := c.user.(draft := None)), Cancelled)
  {
  }

  /** The two ways into the wizard, taken only when it is not running. */
  lemma RegistrarEntry(rev: Revision, c: Config, ev: Event, env: Env)
    requires c.registrar.None? && (ev == Button("registrar") || ev == Command("registrar"))
    ensures Step(rev, c, ev, env) == Transition(c.(registrar := Some(Category)), CategoryPrompt)
  {
  }

  /** The two ways into the deletion flow. No state of the wizard takes these
      updates, so they reach the deletion flow whatever the wizard is doing. */
  lemma DeletionEntry(rev: Revision, c: Config, ev: Event, env: Env)
    requires c.deletion.None? && (ev == Command("deletar") || ev == Button("delete_menu"))
    ensures Step(rev, c, ev, env) == Transition(c.(deletion := Some(DeletePassword)), PasswordPrompt)
  {
    if ev.Button? {
      WizardSkipsDeletionButtons(c.registrar, "delete_menu");
    } else {
      assert RegistrarRoute(c.registrar, ev).None?;
    }
  }

  /** The wizard states whose handlers take any text message. */
  predicate TakesText(conv: Option<State>) {
    conv == Some(Title) || conv == Some(Description) || conv == Some(Photo) || conv == Some(Location)
  }

  /** The password gate, when the wizard does not take the text first: a wrong
      password ends the flow; the choices are offered exactly when the
      password is right and there is something to delete. Nothing else in the
      session changes. */
  lemma PasswordStep(rev: Revision, c: Config, t: string, env: Env)
    requires Inv(c) && c.deletion == Some(DeletePassword) && !TakesText(c.registrar)
    ensures var r := Step(rev, c, Text(t), env);
      && r.next.user == c.user && r.next.store == c.store && r.next.registrar == c.registrar
      && (Strip(t) != AdminPassword ==> r == Transition(c.(deletion := None), WrongPassword))
      && (r.next.deletion == Some(DeleteChoose) <==> Strip(t) == AdminPassword && |c.store| > 0)
      && (r.next.deletion == Some(DeleteChoose) ==> r.out == ShowChoices(ChoiceList(c.store)))
  {
    assert MessageText(Text(t)) == t;
    assert RegistrarRoute(c.registrar, Text(t)).None?;
    assert DeletionRoute(rev, c.deletion, Text(t)) == Some(CheckPasswordH);
    var e := Deletion.CheckPassword(Text(t), c.user, c.store);
    if Strip(t) != AdminPassword {
      assert e == Effect(End, c.user, c.store, WrongPassword);
    } else if |c.store| == 0 {
      assert e == Effect(End, c.user, c.store, NothingToDelete);
    } else {
      assert e == Effect(Goto(DeleteChoose), c.user, c.store, ShowChoices(ChoiceList(c.store)));
    }
  }

  /** The registration conversation is offered every update first: while the
      wizard reads text, a text meant for the password gate becomes a field
      of the draft, and the deletion flow does not see it. */
  lemma WizardTakesTextFirst(rev: Revision, c: Config, t: string, env: Env)
    requires TakesText(c.registrar)
    ensures Step(rev, c, Text(t), env).next.deletion == c.deletion
  {
  }

  lemma DiffersAtStart(data: string, lit: string)
    requires |data| > 0 && |lit| > 0 && data[0] != lit[0]
    ensures !Anchored(data, lit)
  {
    assert (lit + "\n")[0] == lit[0];
  }

  /** No payload of the wizard's buttons begins with "d", so the wizard never
      takes the buttons of the deletion flow, in whatever state it is. */
  lemma WizardSkipsDeletionButtons(conv: Option<State>, data: string)
    requires |data| > 0 && data[0] == 'd'
    ensures RegistrarRoute(conv, Button(data)).None?
  {
    assert !StartsWith(data, Wizard.CategoryPrefix);
    match conv
    case None => DiffersAtStart(data, "registrar");
    case Some(Category) => DiffersAtStart(data, "voltar_menu");
    case Some(Title) => DiffersAtStart(data, "voltar_categoria");
    case Some(Description) => DiffersAtStart(data, "voltar_titulo");
    case Some(Photo) =>
      DiffersAtStart(data, "add_file");
      DiffersAtStart(data, "skip_file");
      DiffersAtStart(data, "voltar_descricao");
      DiffersAtStart(data, "voltar_foto");
    case Some(Location) =>
      DiffersAtStart(data, "voltar_apos_foto");
      DiffersAtStart(data, "voltar_foto");
    case Some(Confirmation) =>
      DiffersAtStart(data, "confirm_save");
      DiffersAtStart(data, "cancel_save");
      DiffersAtStart(data, "voltar_local");
    case Some(_) =>
  }

  /** Choosing a record, with the DELETE_CHOOSE pattern as intended: the
      button of a record asks for confirmation with that record's id
      pending. */
  lemma ChooseStep(c: Config, id: string, env: Env)
    requires c.deletion == Some(DeleteChoose) && ':' !in id
    ensures Step(Intended, c, Button(DeletePrefix + id), env)
      == Transition(c.(deletion := Some(DeleteConfirm), user := c.user.(deleteId := Some(id))), ConfirmDeletePrompt)
  {
    var data := DeletePrefix + id;
    WizardSkipsDeletionButtons(c.registrar, data);
    assert StartsWith(data, DeletePrefix);
    SelectedIdRoundTrip(id);
  }

  /** Choosing a record, with the pattern as written: `^(del:|voltar_senha)$`
      matches no button of a record, no other handler takes it, and the
      session stays where it was. */
  lemma ChooseStepAsWritten(c: Config, id: string, env: Env)
    requires c.deletion == Some(DeleteChoose) && id != "" && id != "\n"
    ensures Step(AsWritten, c, Button(DeletePrefix + id), env) == Transition(c, Ignored)
  {
    var data := DeletePrefix + id;
    WizardSkipsDeletionButtons(c.registrar, data);
    assert data != DeletePrefix && data != DeletePrefix + "\n" by {
      assert data[4..] == id;
    }
    assert !Anchored(data, "voltar_senha");
  }

  /** Confirming a deletion removes every record with the pending id and ends
      the flow, whatever the wizard is doing. */
  lemma DeleteStep(rev: Revision, c: Config, env: Env)
    requires Inv(c) && c.deletion == Some(DeleteConfirm)
    requires c.user.deleteId.Some? && c.user.deleteId.value != ""
    ensures Step(rev, c, Button("delconf:yes"), env)
      == Transition(c.(deletion := None, store := Without(c.store, c.user.deleteId.value)), Deleted)
  {
    WizardSkipsDeletionButtons(c.registrar, "delconf:yes");
  }

  /** Declining, or going back to the choice, offers the same choices again
      and deletes nothing. */
  lemma DeclineStep(rev: Revision, c: Config, data: string, env: Env)
    requires Inv(c) && c.deletion == Some(DeleteConfirm)
    requires data == "delconf:no" || data == "voltar_escolha"
    ensures Step(rev, c, Button(data), env)
      == Transition(c.(deletion := Some(DeleteChoose)), ShowChoices(ChoiceList(c.store)))
  {
    if data == "delconf:no" {
      WizardSkipsDeletionButtons(c.registrar, data);
    } else {
      assert RegistrarRoute(c.registrar, Button(data)).None? by { BackButtonsOfChoice(c.registrar); }
    }
  }

  /** "voltar_escolha" is a button of the deletion flow that no state of the
      wizard takes. */
  lemma BackButtonsOfChoice(conv: Option<State>)
    ensures RegistrarRoute(conv, Button("voltar_escolha")).None?
  {
    var data := "voltar_escolha";
    match conv
    case None =>
      DiffersAtStart(data, "registrar");
    case Some(Category) =>
      assert data[0] != Wizard.CategoryPrefix[0];
      assert !Anchored(data, "voltar_menu") by { assert data[7] != "voltar_menu"[7]; }
    case Some(Title) =>
      assert !Anchored(data, "voltar_categoria") by { assert data[7] != "voltar_categoria"[7]; }
    case Some(Description) =>
      assert !Anchored(data, "voltar_titulo") by { assert data[7] != "voltar_titulo"[7]; }
    case Some(Photo) =>
      DiffersAtStart(data, "add_file");
      DiffersAtStart(data, "skip_file");
      assert !Anchored(data, "voltar_descricao") by { assert data[7] != "voltar_descricao"[7]; }
      assert !Anchored(data, "voltar_foto") by { assert data[7] != "voltar_foto"[7]; }
    case Some(Location) =>
      assert !Anchored(data, "voltar_apos_foto") by { assert data[7] != "voltar_apos_foto"[7]; }
      assert !Anchored(data, "voltar_foto") by { assert data[7] != "voltar_foto"[7]; }
    case Some(Confirmation) =>
      DiffersAtStart(data, "confirm_save");
      DiffersAtStart(data, "cancel_save");
      assert !Anchored(data, "voltar_local") by { assert data[7] != "voltar_local"[7]; }
    case Some(_) =>
  }

  /** Outside both conversations, a text message brings up the menu unless it
      looks like a command, and changes nothing. */
  lemma IdleText(rev: Revision, c: Config, t: string, env: Env)
    requires c.registrar.None? && c.deletion.None?
    ensures Step(rev, c, Text(t), env) == Transition(c, if StartsWith(t, "/") then Silent else MenuShown)
  {
  }

  /** Outside both conversations, "listar" answers with the whole store,
      newest first, and changes nothing. */
  lemma IdleListing(rev: Revision, c: Config, env: Env)
    requires c.registrar.None? && c.deletion.None?
    ensures var r := Step(rev, c, Button("listar"), env);
      && r.next == c
      && r.out.Listed? && NewestFirst(r.out.reports)
      && multiset(r.out.reports) == multiset(c.store)
  {
  }
}

=== FILE: strings.dfy ===
/** The few Python string built-ins the bot relies on, with their exact
    semantics on code-point strings: `str.strip()`, `str.startswith`,
    `str.replace(pat, "")`, `str.split(":")[1]`, the "cut and add an
    ellipsis" idiom, and the ordering `<=` on `str` that `sorted` uses. */
module Strings {

  /** Python's `str.isspace()` for one character: exactly the characters
      that `str.strip()` with no argument removes. */
  predicate IsSpace(c: char) {
    var n := c as int;
    || 0x09 <= n <= 0x0D
    || 0x1C <= n <= 0x20
    || n == 0x85 || n == 0xA0 || n == 0x1680
    || 0x2000 <= n <= 0x200A
    || n == 0x2028 || n == 0x2029 || n == 0x202F || n == 0x205F || n == 0x3000
  }

  predicate AllSpace(s: string) {
    forall i :: 0 <= i < |s| ==> IsSpace(s[i])
  }

  /** The index of the first non-whitespace character at or after `i`
      (`|s|` when there is none): where `lstrip()` cuts. */
  function SkipSpaces(s: string, i: nat): (j: nat)
    requires i <= |s|
    ensures i <= j <= |s|
    ensures forall k :: i <= k < j ==> IsSpace(s[k])
    ensures j == |s| || !IsSpace(s[j])
    decreases |s| - i
  {
    if i < |s| && IsSpace(s[i]) then SkipSpaces(s, i + 1) else i
  }

  /** The index just past the last non-whitespace character before `j`
      (0 when there is none): where `rstrip()` cuts. */
  function BackSpaces(s: string, j: nat): (i: nat)
    requires j <= |s|
    ensures i <= j
    ensures forall k :: i <= k < j ==> IsSpace(s[k])
    ensures i == 0 || !IsSpace(s[i - 1])
    decreases j
  {
    if j > 0 && IsSpace(s[j - 1]) then BackSpaces(s, j - 1) else j
  }

  /** `str.strip()`: the text between the whitespace prefix and the
      whitespace suffix; empty exactly when the text is all whitespace. */
  function Strip(s: string): (r: string)
    ensures |r| <= |s|
    ensures r == [] || (!IsSpace(r[0]) && !IsSpace(r[|r| - 1]))
    ensures r == [] <==> AllSpace(s)
  {
    var start := SkipSpaces(s, 0);
    var end := BackSpaces(s, |s|);
    if end <= start then [] else s[start..end]
  }

  /** `strip()` removes exactly the surrounding whitespace: whatever is padded
      around a text that neither starts nor ends with whitespace comes back as
      that text. */
  lemma StripPadding(before: string, core: string, after: string)
    requires AllSpace(before) && AllSpace(after)
    requires core == [] || (!IsSpace(core[0]) && !IsSpace(core[|core| - 1]))
    ensures Strip(before + core + after) == core
  {
    var s := before + core + after;
    if core == [] {
      assert AllSpace(s) by {
        forall k | 0 <= k < |s| ensures IsSpace(s[k]) {
          if k < |before| { assert s[k] == before[k]; } else { assert s[k] == after[k - |before|]; }
        }
      }
    } else {
      var start := SkipSpaces(s, 0);
      var end := BackSpaces(s, |s|);
      var b := |before|;
      var e := |before| + |core|;
      assert s[b] == core[0] && s[e - 1] == core[|core| - 1];
      assert start == b && end == e;
      assert s[b..e] == core;
    }
  }

  /** Stripping twice is stripping once. */
  lemma StripIdempotent(s: string)
    ensures Strip(Strip(s)) == Strip(s)
  {
    var r := Strip(s);
    StripPadding([], r, []);
    assert [] + r + [] == r;
  }

  predicate StartsWith(s: string, prefix: string) {
    |prefix| <= |s| && s[..|prefix|] == prefix
  }

  /** `pat in s` for a non-empty pattern. */
  predicate Occurs(pat: string, s: string)
    decreases |s|
  {
    StartsWith(s, pat) || (|s| > 0 && Occurs(pat, s[1..]))
  }

  /** `s.replace(pat, "")`: scans left to right and drops every
      non-overlapping occurrence of `pat`. */
  function RemoveAll(s: string, pat: string): (r: string)
    requires |pat| > 0
    ensures |r| <= |s|
    ensures !Occurs(pat, s) ==> r == s
    decreases |s|
  {
    if |s| == 0 then []
    else if StartsWith(s, pat) then RemoveAll(s[|pat|..], pat)
    else [s[0]] + RemoveAll(s[1..], pat)
  }

  /** A pattern that contains a character cannot occur in a text without it. */
  lemma {:induction false} AbsentCharNoOccurrence(pat: string, c: char, s: string)
    requires c in pat && c !in s
    ensures !Occurs(pat, s)
    decreases |s|
  {
    if |s| > 0 {
      AbsentCharNoOccurrence(pat, c, s[1..]);
    }
  }

  /** Removing a prefix that has been put in front of a text without any
      occurrence of it gives the text back. */
  lemma RemoveAllPrefixed(pat: string, s: string)
    requires |pat| > 0 && !Occurs(pat, s)
    ensures RemoveAll(pat + s, pat) == s
  {
    assert StartsWith(pat + s, pat);
    assert (pat + s)[|pat|..] == s;
  }

  /** `s if len(s) <= limit else s[:limit - 3] + "..."`. */
  function Ellipsize(s: string, limit: nat): (r: string)
    requires limit >= 3
    ensures |r| <= limit
    ensures |s| <= limit <==> r == s
    ensures |s| > limit ==> |r| == limit && StartsWith(s, r[..limit - 3]) && r[limit - 3..] == "..."
  {
    if |s| > limit then s[..limit - 3] + "..." else s
  }

  /** The text before the first ':' (all of `s` when it has none): the
      first piece `s.split(":")` yields. */
  function UpToColon(s: string): (r: string)
    ensures StartsWith(s, r)
    ensures ':' !in r
    ensures |r| < |s| ==> s[|r|] == ':'
  {
    if |s| == 0 || s[0] == ':' then [] else [s[0]] + UpToColon(s[1..])
  }

  /** Python's `a <= b` on `str`: lexicographic by code point, a proper
      prefix ordering first. */
  predicate LexLe(a: string, b: string)
    decreases |a|
  {
    |a| == 0 || (|b| > 0 && (a[0] < b[0] || (a[0] == b[0] && LexLe(a[1..], b[1..]))))
  }

  lemma {:induction false} LexLeReflexive(a: string)
    ensures LexLe(a, a)
    decreases |a|
  {
    if |a| > 0 {
      LexLeReflexive(a[1..]);
    }
  }

  lemma {:induction false} LexLeTotal(a: string, b: string)
    ensures LexLe(a, b) || LexLe(b, a)
    decreases |a|
  {
    if |a| > 0 && |b| > 0 && a[0] == b[0] {
      LexLeTotal(a[1..], b[1..]);
    }
  }

  lemma {:induction false} LexLeTransitive(a: string, b: string, c: string)
    requires LexLe(a, b) && LexLe(b, c)
    ensures LexLe(a, c)
    decreases |a|
  {
    if |a| > 0 && a[0] == b[0] && b[0] == c[0] {
      LexLeTransitive(a[1..], b[1..], c[1..]);
    }
  }

  lemma {:induction false} LexLeAntisymmetric(a: string, b: string)
    requires LexLe(a, b) && LexLe(b, a)
    ensures a == b
    decreases |a|
  {
    if |a| > 0 {
      LexLeAntisymmetric(a[1..], b[1..]);
      assert a == [a[0]] + a[1..];
      assert b == [b[0]] + b[1..];
    }
  }
}

=== FILE: wizard.dfy ===
/** The report-creation wizard: the handlers of `registrar_handler`, one
    function per handler, each taking the update, `user_data`, the store and
    the outside values, and returning what the handler returns together with
    the new user data and store. */
module Wizard {
  import opened Strings
  import opened Records
  import opened Conversation

  const CategoryPrefix := "cat:"

  /** The length bounds each free-text step puts on the stripped input. */
  predicate TitleFits(t: string) { 3 <= |t| <= 100 }
  predicate DescriptionFits(t: string) { 10 <= |t| }
  predicate LocationFits(t: string) { 5 <= |t| }

  /** `menu_callback`: the main-menu buttons. Only "registrar" enters the
      category step; "delete_menu" would enter the password step. */
  function MenuCallback(data: string, u: UserData, store: seq<Report>): (e: Effect)
    ensures e.user == u && e.store == store
    ensures e.ret == Goto(Category) <==> data == "registrar"
    ensures e.ret == Goto(DeletePassword) <==> data == "delete_menu"
    ensures data != "registrar" && data != "delete_menu" ==> e.ret == End
    ensures data == "listar" ==> e.out == Listed(Listing(store))
  {
    if data == "registrar" then Effect(Goto(Category), u, store, CategoryPrompt)
    else if data == "listar" then Effect(End, u, store, Listed(Listing(store)))
    else if data == "delete_menu" then Effect(Goto(DeletePassword), u, store, PasswordPrompt)
    else if data == "ajuda" then Effect(End, u, store, HelpShown)
    else if data == "voltar_menu" then Effect(End, u, store, MenuShown)
    else Effect(End, u, store, Silent)
  }

  /** `registrar_command`: `/registrar` shows the categories, exactly as the
      "registrar" button of the main menu does. */
  function RegistrarCommand(u: UserData, store: seq<Report>): (e: Effect)
    ensures e == MenuCallback("registrar", u, store)
    ensures e.ret == Goto(Category) && e.user == u && e.store == store
  {
    Effect(Goto(Category), u, store, CategoryPrompt)
  }

  /** The draft a category choice starts. */
  function NewDraft(category: string): Report {
    Blank.(category := Some(category), status := Some(StatusPending))
  }

  /** `escolher_categoria`: any payload but "voltar_menu" replaces the whole
      draft by the chosen category and the pending status. */
  function ChooseCategory(data: string, u: UserData, store: seq<Report>): (e: Effect)
    ensures e.store == store && e.user.deleteId == u.deleteId
    ensures e.ret == End <==> data == "voltar_menu"
    ensures data == "voltar_menu" ==> e.user == u
    ensures data != "voltar_menu" ==>
      && e.ret == Goto(Title)
      && e.user.draft == Some(NewDraft(RemoveAll(data, CategoryPrefix)))
  {
    if data == "voltar_menu" then Effect(End, u, store, MenuShown)
    else
      var category := RemoveAll(data, CategoryPrefix);
      Effect(Goto(Title), u.(draft := Some(NewDraft(category))), store, TitlePrompt)
  }

  /** Every category button `cat:<c>` yields the draft of category `c`,
      status "pendente", and nothing else. */
  lemma CategoryButtonRoundTrip(i: nat, u: UserData, store: seq<Report>)
    requires i < |Categories|
    ensures var d := ChooseCategory(CategoryPrefix + Categories[i], u, store).user.draft;
      && d == Some(NewDraft(Categories[i]))
      && d.value.category == Some(Categories[i])
      && d.value.status == Some(StatusPending)
      && d.value.title.None? && d.value.description.None? && d.value.photo.NoEntry?
      && d.value.location.None? && d.value.id.None? && d.value.createdAt.None?
  {
    var c := Categories[i];
    assert ':' !in c;
    AbsentCharNoOccurrence(CategoryPrefix, ':', c);
    RemoveAllPrefixed(CategoryPrefix, c);
  }

  /** `receber_titulo`. */
  function ReceiveTitle(ev: Event, u: UserData, store: seq<Report>): (e: Effect)
    ensures e.store == store && e.user.deleteId == u.deleteId
    ensures ev.Button? ==> e.user == u && (e.ret == Goto(Category) <==> ev.data == "voltar_categoria")
    ensures !ev.Button? ==> var t := Strip(MessageText(ev));
      && (e.ret == Goto(Description) <==> TitleFits(t) && u.draft.Some?)
      && (|t| < 3 ==> e == Effect(Goto(Title), u, store, Rejected(TitleTooShort)))
      && (|t| > 100 ==> e == Effect(Goto(Title), u, store, Rejected(TitleTooLong)))
      && (e.ret == Goto(Description) ==> e.user.draft == Some(u.draft.value.(title := Some(t))))
    ensures e.ret != Goto(Description) ==> e.user == u
  {
    match ev
    case Button(data) =>
      if data == "voltar_categoria" then Effect(Goto(Category), u, store, CategoryPrompt)
      else Raise(u, store)   // falls through to `update.message.text` on a callback update
    case _ =>
      var t := Strip(MessageText(ev));
      if |t| < 3 then Effect(Goto(Title), u, store, Rejected(TitleTooShort))
      else if |t| > 100 then Effect(Goto(Title), u, store, Rejected(TitleTooLong))
      else if u.draft.None? then Raise(u, store)
      else Effect(Goto(Description), u.(draft := Some(u.draft.value.(title := Some(t)))), store, DescriptionPrompt)
  }

  /** `receber_descricao`: the description has a lower bound only. */
  function ReceiveDescription(ev: Event, u: UserData, store: seq<Report>): (e: Effect)
    ensures e.store == store && e.user.deleteId == u.deleteId
    ensures ev.Button? ==> e.user == u && (e.ret == Goto(Title) <==> ev.data == "voltar_titulo")
    ensures !ev.Button? ==> var t := Strip(MessageText(ev));
      && (e.ret == Goto(Photo) <==> DescriptionFits(t) && u.draft.Some?)
      && (!DescriptionFits(t) ==> e == Effect(Goto(Description), u, store, Rejected(DescriptionTooShort)))
      && (e.ret == Goto(Photo) ==> e.user.draft == Some(u.draft.value.(description := Some(t))))
    ensures e.ret != Goto(Photo) ==> e.user == u
  {
    match ev
    case Button(data) =>
      if data == "voltar_titulo" then Effect(Goto(Title), u, store, TitlePrompt)
      else Raise(u, store)
    case _ =>
      var t := Strip(MessageText(ev));
      if |t| < 10 then Effect(Goto(Description), u, store, Rejected(DescriptionTooShort))
      else if u.draft.None? then Raise(u, store)
      else Effect(Goto(Photo), u.(draft := Some(u.draft.value.(description := Some(t)))), store, PhotoPrompt)
  }

  /** `photo_choice`: the buttons of the photo step. Only "skip_file" touches
      the draft, recording that there is no photo. */
  function PhotoChoice(data: string, u: UserData, store: seq<Report>): (e: Effect)
    ensures e.store == store && e.user.deleteId == u.deleteId
    ensures data != "skip_file" ==> e.user == u
    ensures data == "skip_file" && u.draft.Some? ==>
      e.ret == Goto(Location) && e.user.draft == Some(u.draft.value.(photo := Skipped))
    ensures data == "skip_file" && u.draft.None? ==> e == Raise(u, store)
    ensures data == "add_file" ==> e.ret == Goto(Photo)
    ensures data == "voltar_descricao" ==> e.ret == Goto(Description)
    ensures data == "voltar_foto" ==> e.ret == Goto(Photo)
    ensures data !in {"skip_file", "add_file", "voltar_descricao", "voltar_foto"} ==> e.ret == KeepState
  {
    if data == "skip_file" then
      if u.draft.None? then Raise(u, store)
      else Effect(Goto(Location), u.(draft := Some(u.draft.value.(photo := Skipped))), store, LocationPrompt)
    else if data == "add_file" then Effect(Goto(Photo), u, store, PhotoUploadPrompt)
    else if data == "voltar_descricao" then Effect(Goto(Description), u, store, DescriptionPrompt)
    else if data == "voltar_foto" then Effect(Goto(Photo), u, store, PhotoPrompt)
    else Effect(KeepState, u, store, Silent)
  }

  /** `receber_foto`: a photo is stored and the wizard moves on; any other
      message re-offers the photo choice. */
  function ReceivePhoto(ev: Event, u: UserData, store: seq<Report>): (e: Effect)
    ensures e.store == store && e.user.deleteId == u.deleteId
    ensures ev.PhotoMessage? && u.draft.Some? ==>
      e.ret == Goto(Location) && e.user.draft == Some(u.draft.value.(photo := Attached(ev.fileId)))
    ensures ev.Text? || ev.Command? ==> e == Effect(Goto(Photo), u, store, PhotoRequired)
    ensures e.ret != Goto(Location) ==> e.user == u
  {
    match ev
    case PhotoMessage(fileId) =>
      if u.draft.None? then Raise(u, store)
      else Effect(Goto(Location), u.(draft := Some(u.draft.value.(photo := Attached(fileId)))), store, LocationPrompt)
    case Button(_) => Raise(u, store)   // a callback update has no `message`
    case _ => Effect(Goto(Photo), u, store, PhotoRequired)
  }

  /** The update `receber_local` applies to the draft: the location, a fresh
      id, the sender and chat, empty coordinates, and the creation time
      (`updated_at` equal to `created_at`). The keys are overwritten, never added twice. */
  function Locate(d: Report, place: string, env: Env): (r: Report)
    ensures r.location == Some(place) && r.id == Some(env.freshId)
    ensures r.createdAt == Some(env.now) && r.updatedAt == r.createdAt
    ensures r.createdAtFormatted == Some(env.nowFormatted)
    ensures r.userId == Some(env.userId) && r.chatId == Some(env.chatId)
    ensures r.category == d.category && r.status == d.status && r.title == d.title
    ensures r.description == d.description && r.photo == d.photo
    ensures r.latitude == Null && r.longitude == Null
  {
    d.(location := Some(place), id := Some(env.freshId), userId := Some(env.userId),
       chatId := Some(env.chatId), createdAt := Some(env.now),
       createdAtFormatted := Some(env.nowFormatted), updatedAt := Some(env.now),
       latitude := Null, longitude := Null)
  }

  /** Submitting a location again (after going back from the confirmation)
      leaves only the latest location, id and timestamps. */
  lemma LocateOverwrites(d: Report, p1: string, e1: Env, p2: string, e2: Env)
    ensures Locate(Locate(d, p1, e1), p2, e2) == Locate(d, p2, e2)
  {
  }

  /** `receber_local`. */
  function ReceiveLocation(ev: Event, u: UserData, store: seq<Report>, env: Env): (e: Effect)
    ensures e.store == store && e.user.deleteId == u.deleteId
    ensures ev.Button? ==>
      && e.user == u
      && (e.ret == Goto(Photo) <==> ev.data == "voltar_apos_foto" || ev.data == "voltar_foto")
    ensures !ev.Button? ==> var t := Strip(MessageText(ev));
      && (e.ret == Goto(Confirmation) <==> LocationFits(t) && u.draft.Some?)
      && (!LocationFits(t) ==> e == Effect(Goto(Location), u, store, Rejected(LocationTooVague)))
      && (e.ret == Goto(Confirmation) ==>
            && e.user.draft == Some(Locate(u.draft.value, t, env))
            && e.out == ShowPreview(Preview(e.user.draft.value)))
    ensures e.ret != Goto(Confirmation) ==> e.user == u
  {
    match ev
    case Button(data) =>
      if data == "voltar_apos_foto" || data == "voltar_foto" then Effect(Goto(Photo), u, store, PhotoPrompt)
      else Raise(u, store)
    case _ =>
      var t := Strip(MessageText(ev));
      if |t| < 5 then Effect(Goto(Location), u, store, Rejected(LocationTooVague))
      else if u.draft.None? then Raise(u, store)
      else
        var d := Locate(u.draft.value, t, env);
        Effect(Goto(Confirmation), u.(draft := Some(d)), store, ShowPreview(Preview(d)))
  }

  /** `confirmar_registro`. Confirming appends the draft to the end of the
      store, then clears the draft only when the save succeeded; cancelling
      clears the draft; every button but "voltar_local" ends the wizard. */
  function Confirm(data: string, u: UserData, store: seq<Report>, env: Env): (e: Effect)
    ensures e.user.deleteId == u.deleteId
    ensures data == "confirm_save" && HasDraft(u) ==>
      && e.ret == End
      && e.store == store + [u.draft.value]
      && (env.saveOk ==> e.user == u.(draft := None) && e.out == Saved)
      && (!env.saveOk ==> e.user == u && e.out == SaveFailed)
    ensures data == "confirm_save" && !HasDraft(u) ==> e == Effect(End, u, store, NoDraft)
    ensures data != "confirm_save" ==> e.store == store
    ensures data == "cancel_save" ==> e == Effect(End, u.(draft := None), store, Cancelled)
    ensures e.ret == Goto(Location) <==> data == "voltar_local"
    ensures e.ret != Goto(Location) ==> e.ret == End
    ensures data == "voltar_local" ==> e.user == u
  {
    if data == "confirm_save" then
      if !HasDraft(u) then Effect(End, u, store, NoDraft)
      else
        var stored := store + [u.draft.value];
        if !env.saveOk then Effect(End, u, stored, SaveFailed)
        else Effect(End, u.(draft := None), stored, Saved)
    else if data == "cancel_save" then Effect(End, u.(draft := None), store, Cancelled)
    else if data == "voltar_local" then Effect(Goto(Location), u, store, LocationPrompt)
    else Effect(End, u, store, Silent)
  }
}
